=== FILE: README.md ===
# Conference timetable grid, modelled in Dafny

This project models the `TimeTable` class of `conference/utils.py`. That class is the grid engine behind the conference schedule page:

- It is a sparse map from a (start time, row) position to a cell.
- A cell is either the *anchor* of a placed item or a *reference*. A reference marks a slot that the item also covers, on another row or at a later slot.
- A log of overlap diagnostics sits alongside the map.

The core is `setEvent` and its per-cell conflict policy `_setEvent`. When a cell lands on an occupied position:

- An anchor already there wins. The write is rejected and an `overlap-event` diagnostic is logged.
- A reference already there loses. An `overlap-reference` warning is logged, but only when neither item is flexible.
- The earlier item is then trimmed: its references from that time on are removed on every row, and its length in slots (`columns`) is cut back. This happens unless a flexible item lands on a fixed item's reference.

A flexible item is one placed with duration 0. It stretches to the next item on its first row, or to the end of the grid when there is none.

Around that core sit the read-only views:

- `iterOnRow`
- `findFirstEvent`
- `columns`
- `eventsAtTime`
- `changesAtTime`
- `byRows` and `byTimes`
- `slice`

Layout:

- `wrappers.dfy` has the `Option` type.
- `grid.dfy` has the data model: `Event`, `Cell` (anchor or reference), `Diagnostic`, `TimeTable`, the invariant `Valid`, the constructor `Init` and the slot-time enumeration.
- `views.dfy` has the read-only projections.
- `trim.dfy` has the trim walk and its declarative characterisation.
- `placement.dfy` has `_setEvent` (`Place`), the sequence of writes (`PlaceAll`), the layout of an event's cells (`Plan`), the duration rule and `setEvent` (`SetEvent`).
- `scenarios.dfy` has worked grids that pin down each branch of the conflict policy.

Modelling choices:

- **Times.** Times are whole minutes since midnight, as unbounded integers. The slot length is a positive number of minutes.
  - Python 2's `/` on the non-negative minute and second counts is floor division. Dafny's `/` agrees with it for a positive divisor.
- **Events.** Python events are mutable objects that references point to by identity, and trimming assigns `evt0.columns`.
  - Here, events live in an arena `events: seq<Event>`. A reference holds the index of its event.
  - Trimming updates that one arena entry.
  - `setEvent` appends the new event to the arena before it writes any cell. So an event that never reaches the grid (its anchor was rejected) still has an arena entry. In the source the object stays reachable only through its stored references, and an unreferenced one is unobservable.
  - Python's identity test `e.evt is evt0` becomes equality of indices.
- **`Valid`.** The invariant `Valid` holds the constructor's two checks, a non-empty time span and at least one row (conference/utils.py:174, 176). It adds a positive slot, which the constructor does not check. It also says each stored cell sits at its own coordinates and belongs to an arena event. Every operation keeps it.
- **Trim walk.** The walk is `iterOnRow(row, start=evt.time)` on every grid row.
  - It visits the slot times `t, t + slot, …` below the grid end and skips absent positions.
  - It deletes references to the trimmed event and stops at the first present cell that is anything else.
  - `Trim.Swept` says declaratively which keys this walk removes.

A flexible item placed on a fixed item's reference does not trim it. The trim condition `not flex or prev.flex` (conference/utils.py:280) is false there, so the fixed item keeps its `columns` and its other references, no `overlap-reference` warning is logged (line 264), and only the one reference cell is overwritten (line 290). `Placement.PlaceNoTrim` states this in general and `Scenarios.FlexOntoFixedReference` on a concrete grid.

## Model

| member | source | states |
|---|---|---|
| Grid.Init | conference/utils.py:172-180 | a new timetable over a non-empty span with at least one row and a positive slot is valid, keeps the span, rows and slot, and holds no cells, events or errors |
| Grid.SlotTimesLattice | conference/utils.py:297-302 | the stepping loop visits exactly `lo + i*slot` for consecutive `i`, the last visited time is below `hi`, and the next step would reach `hi` |
| Views.IterOnRow | conference/utils.py:292-302 | `iterOnRow` yields only cells of that row at slot times of the window (`start`, `start + slot`, …), each being the occupant of its own position, yields every occupied slot of the window, and yields them in strictly increasing time order |
| Views.RowCellsOrdered | conference/utils.py:297-302 | walking increasing slot times and skipping absent positions yields cells in strictly increasing time order |
| Views.FindFirstEvent | conference/utils.py:304-309 | the event found, if any, is an arena event starting at or after the search start |
| Views.FindFirstEventIsFirstHit | conference/utils.py:304-309 | `findFirstEvent` returns the first hit of the slot-by-slot scan (an anchor, or a reference whose event starts at or after the search start), and returns nothing exactly when no scanned slot is a hit |
| Views.Columns | conference/utils.py:311-315 | the grid's columns are `start + i*slot` and tile `[start, end)`: the last starts before `end` and the one after it would not |
| Views.EventsAtTime | conference/utils.py:317-330 | every cell reported at `t` is the stored occupant of position (`t`, its row) on a grid row, and is an anchor unless references are asked for; every such occupant of a grid row is reported; there are no more cells than grid rows |
| Views.ChangesAtTime | conference/utils.py:332-342 | a position is a change at `t` exactly when it holds an anchor whose event starts at `t` or whose `columns` slots end at `t` |
| Views.StartsAreChanges | conference/utils.py:317-342 | every anchor `eventsAtTime(t)` reports is a change at `t`, and every change that starts at `t` on a grid row is reported by `eventsAtTime(t)` |
| Views.ByRows | conference/utils.py:344-358 | `byRows` has one line per grid row in row order, each with one entry per column of the grid holding that column's time, the row, and the occupant of the position or nothing |
| Views.ByTimes | conference/utils.py:360-374 | `byTimes` has one line per column of the grid in time order, each with one entry per grid row holding the row and the occupant of the position or nothing |
| Views.ByRowsByTimesTranspose | conference/utils.py:344-374 | entry (row, column) of `byRows` and entry (column, row) of `byTimes` agree on time, row and occupant, so one dump is the transpose of the other |
| Views.SliceBounds | conference/utils.py:182-188 | the slice bounds are the given bounds (defaults filled in from the grid), ordered |
| Views.Slice | conference/utils.py:182-201 | a slice is a valid timetable over the ordered window with the same rows, slot, events and errors, holding exactly the cells that start inside the window, unchanged |
| Views.SliceSymmetric | conference/utils.py:187-188 | swapping the two bounds gives the same slice |
| Trim.TrimScan | conference/utils.py:284-288 | the walk on one row only removes cells, and never removes a cell of another row or a cell that is not a reference to the trimmed event |
| Trim.TrimScanSpec | conference/utils.py:284-288 | the walk on one row removes exactly the swept keys: references to the trimmed event that no other present cell precedes on the walk |
| Trim.TrimRows | conference/utils.py:283-288 | walking every row only removes cells, and only references to the trimmed event |
| Trim.TrimRowsSpec | conference/utils.py:283-288 | walking every grid row removes exactly the keys that the walk of their own row sweeps |
| Placement.Place | conference/utils.py:239-290 | one write keeps the timetable valid. An empty position takes the cell silently. An anchor there rejects the write with an `overlap-event` diagnostic naming both payloads. A reference there is overwritten, with an `overlap-reference` diagnostic only when both items are fixed. No other position gains or changes a cell, and no anchor is ever removed |
| Placement.SlotsBetween | conference/utils.py:282 | the new length of a trimmed event is the number of whole slots between its start and the cutting cell, which is non-negative |
| Placement.PlaceTrimColumns | conference/utils.py:280-289 | when a fixed cell, or any cell on a flexible item's reference, overwrites a reference, only the earlier event's arena entry changes. Its `columns` becomes the whole slots from its start to the new cell |
| Placement.PlaceTrimCells | conference/utils.py:280-290 | in that case the cells removed besides the written position are exactly those the trim walk sweeps on the grid rows from the new cell's time |
| Placement.PlaceNoTrim | conference/utils.py:273-290 | a flexible cell on a fixed item's reference leaves the arena as it was and removes no other cell |
| Placement.PlaceLogsAtMostOne | conference/utils.py:246-271 | one write only appends to the log, and at most one entry |
| Placement.PlaceAll | conference/utils.py:226-237 | a sequence of writes keeps the timetable valid, only extends the log, and logs at most one entry per write |
| Placement.PlaceAllFrame | conference/utils.py:226-237 | after a sequence of writes every cell is either one of the written cells or was there before, and every anchor present before is still there |
| Placement.PlaceAllFirst | conference/utils.py:225-237 | the diagnostics and anchors that the first write of `setEvent` produces survive the later writes |
| Placement.StepsCover | conference/utils.py:231-237 | the extension loop writes `count - 1` slots with one reference per row, one for every later slot and row |
| Placement.Plan | conference/utils.py:225-237 | every cell `setEvent` plans belongs to the new event, lies on one of its rows no earlier than its start, the only anchor is at the start on the first row, and every reference carries the event's flexibility |
| Placement.PlanCover | conference/utils.py:225-237 | an event's cells are its anchor first, a reference on each further row at its start, and a reference on every row at each of the next `count - 1` slots, `max(count, 1) * rows` cells in all |
| Placement.EffectiveDuration | conference/utils.py:214-222 | a given duration is kept. Duration 0 stretches to the event found from the next slot on the first row, which is at least a slot away, or else to the grid end, and is positive |
| Placement.NewEvent | conference/utils.py:214-225 | the appended event has the given time, first row, payload and row count, and `duration / slot` columns. A flexible item gets the whole slots up to the start of the event `findFirstEvent` finds from the next slot on its first row, or up to the grid end when none is found, never a negative count |
| Placement.NewEventColumns | conference/utils.py:223 | the appended event's `columns` is the effective duration divided by the slot length |
| Placement.WithEvent | conference/utils.py:225 | appending an event to the arena keeps the timetable valid and changes nothing else |
| Placement.PlanFits | conference/utils.py:225-237 | every cell of the new event's plan may be stored at its position given the extended arena |
| Placement.SetEvent | conference/utils.py:211-237 | `setEvent` keeps the timetable valid and appends exactly one event with the given time, first row, payload and row count. Earlier events change at most in their `columns`, the log only grows, and no anchor is removed |
| Placement.PlaceKeepsOwner | conference/utils.py:280-290 | a write that does not land on a reference of an event leaves that event's arena entry and its cells at other positions unchanged, since a trim only touches the event whose reference was overwritten |
| Placement.PlaceAllOwn | conference/utils.py:226-237 | writing one event's cells at distinct positions, none holding a reference to it beforehand, leaves the event's arena entry and its other cells unchanged, and stores every written cell unless an anchor already held its position |
| Placement.StepsDistinct | conference/utils.py:231-237 | with a positive slot and distinct rows the extension loop writes each position at most once |
| Placement.PlanDistinct | conference/utils.py:225-237 | with a positive slot and distinct rows `setEvent` writes each position at most once |
| Placement.SetEventWritesPlan | conference/utils.py:211-237 | on distinct rows the event `setEvent` appends keeps the `columns` it computed, and every planned cell is stored unless an anchor already held that position |
| Placement.SetEventCells | conference/utils.py:225-237 | every cell `setEvent` adds belongs to the new event, on one of its rows, no earlier than its start, and its references carry the event's flexibility |
| Placement.SetEventAnchor | conference/utils.py:225-254 | the new event's anchor takes its position unless an anchor holds it. If one does, that anchor stays and the first diagnostic of the call is the `overlap-event` naming both payloads |
| Scenarios.TalkAtNine | conference/utils.py:211-237 | a 30-minute item at 09:00 on an empty 15-minute grid writes its anchor and one reference at 09:15 |
| Scenarios.NothingAfterTalk | conference/utils.py:304-309 | with only that item on the grid, no event is found on its row from 09:30 on |
| Scenarios.FlexOntoFixedReference | conference/utils.py:273-290 | a flexible item placed at 09:15 onto the fixed item's reference overwrites it without warning. The fixed item is not trimmed, and the flexible item stretches to the grid end |
| Scenarios.RejectedAnchor | conference/utils.py:246-254 | a second item on the first item's anchor is rejected with an `overlap-event` diagnostic, and the grid is unchanged |
| Scenarios.FixedOntoFixedReference | conference/utils.py:264-290 | a fixed item placed onto a fixed item's reference is reported as `overlap-reference` and cuts the earlier item back to one slot |
| Scenarios.FixedIntoFlexibleLunch | conference/utils.py:273-290 | a fixed talk written onto a flexible lunch's reference logs nothing, removes the lunch's references from that time on both its rows, and cuts the lunch back to one slot |

## Left out

- Midnight wrap-around: `sumTime` and `diffTime` go through `datetime` on today's date, so a time past midnight wraps, and `.seconds` of a negative difference wraps to a positive one. Times here are unbounded minutes, so no wrap can occur.
- Placement.SetEvent: requires the start to be before the grid end when the duration is 0. Only on that path does the source take `diffTime(end, time).seconds`, and a later start would wrap as above. This also excludes a start equal to the grid end, which the source handles without wrapping: the duration and `count` are 0, and it writes only the anchor and the references at the start time (lines 218 and 223-230).
- Placement.EffectiveDuration and Placement.NewEvent: same requirement on a flexible item's start, for the same reason.
- Placement.SetEvent: when `rows` repeats a row, later writes of the call can land on the new event's own references and trim it. The model computes that, but the contract then states only what holds for any rows; the appended event's `columns` and the storing of every planned cell are promised for distinct rows (`Placement.SetEventWritesPlan`).
- Grid.Init: requires a positive slot, which the source does not check. With a slot length of 0, `setEvent` divides by zero (conference/utils.py:223) and `iterOnRow`, `columns`, `byRows` and `byTimes` never advance (lines 297-302, 313, 352, 366). Neither this nor a negative length is modelled.
- Python truthiness in `slice`: a start of `00:00` counts as "not given" in the source. The model takes `Option` bounds, where only `None` means "not given".
- Views.Slice: requires the two resolved bounds to differ, because the source's constructor asserts `start < end`.
- Views.Slice: the slice gets its own copy of the event arena. In the source, the copied dictionary shares the mutable event objects, so a later trim in one timetable also changes `columns` in the other; here it does not.
- Views.ChangesAtTime: returns a set of positions. The source returns a list in the dictionary's iteration order, which is unspecified.
- Views.EventsAtTime: returns the cells in row order, as the source does. The contract states which cells are reported and that each is the stored occupant, not their order.
- The `msg` strings of the diagnostics are not kept, since they are built from the other fields.
- The default slot length of 15 minutes is not modelled; callers pass the slot length.
- The `assert rows` and subset checks of `setEvent` become preconditions of `Placement.SetEvent`.
- Everything in `conference/utils.py` outside `TimeTable` is not part of this model: the settings import helper, e-mail sending, ranking, the tweets cache and badge rendering. So are the Django models and views that call the timetable.

=== FILE: grid.dfy ===
/**
 * The store behind the conference timetable: a sparse map from (time, row)
 * to a cell, an arena of the events placed so far, and the diagnostics log.
 *
 * Times are minutes since midnight. An `Event` is the anchor of a placed
 * item; a `Reference` marks a slot that the item occupies on another row at
 * its start time or at a later slot. A reference names its event by its
 * index in the arena, so trimming an event is an update of one arena entry.
 */
module Grid {
  import opened Wrappers

  /** A grid row (a room or a track); opaque and comparable. */
  type Row = string
  /** The scheduled object an event stands for (a talk, a break); opaque. */
  type Payload = int
  /** Index of an event in the arena. */
  type EventId = nat
  /** A grid position: start minute and row. */
  type Key = (int, Row)

  /** A placed item: where it starts, what it is, how many slots and rows it spans. */
  datatype Event = Event(time: int, row: Row, ref: Payload, columns: int, rows: nat)

  datatype Cell =
    | Anchor(time: int, row: Row, id: EventId)
    | Reference(time: int, row: Row, evt: EventId, flex: bool)
  {
    /** The event this cell belongs to. */
    function Owner(): EventId {
      if Anchor? then id else evt
    }

    /** The grid position the cell is written to. */
    function Pos(): Key {
      (time, row)
    }

    predicate IsReferenceTo(e: EventId) {
      Reference? && evt == e
    }
  }

  datatype ErrorKind = OverlapEvent | OverlapReference

  /** One entry of the error log; the human-readable message is not kept. */
  datatype Diagnostic = Diagnostic(kind: ErrorKind, time: int, event: Payload, previous: Payload)

  datatype TimeTable = TimeTable(
    start: int,
    end: int,
    rows: seq<Row>,
    slot: nat,
    data: map<Key, Cell>,
    events: seq<Event>,
    errors: seq<Diagnostic>)

  /** Cell `c` may be stored at key `k` given the arena `events`. */
  predicate Fits(events: seq<Event>, k: Key, c: Cell) {
    && c.time == k.0
    && c.row == k.1
    && c.Owner() < |events|
    && (c.Anchor? ==> events[c.id].time == c.time && events[c.id].row == c.row)
    && (c.Reference? ==> events[c.evt].time <= c.time)
  }

  /**
   * The constructor's checks (a non-empty time span, at least one row), a
   * positive slot, which the constructor does not check but every stepping
   * loop and the slot count of `setEvent` rely on, and the shape every
   * placement keeps: each cell sits at its own coordinates and belongs to
   * an event of the arena.
   */
  predicate Valid(g: TimeTable) {
    && g.start < g.end
    && |g.rows| > 0
    && g.slot > 0
    && forall k | k in g.data :: Fits(g.events, k, g.data[k])
  }

  /** Two arenas that differ at most in the `columns` of their events. */
  predicate SameShape(a: seq<Event>, b: seq<Event>) {
    && |a| == |b|
    && forall i | 0 <= i < |a| ::
         a[i].time == b[i].time && a[i].row == b[i].row && a[i].ref == b[i].ref && a[i].rows == b[i].rows
  }

  lemma SameShapeTrans(a: seq<Event>, b: seq<Event>, c: seq<Event>)
    requires SameShape(a, b) && SameShape(b, c)
    ensures SameShape(a, c)
  {
  }

  /**
   * Dropping cells and changing the events' `columns` keeps a timetable
   * valid, and so does storing one more cell that fits.
   */
  lemma ValidAfterWrite(g: TimeTable, data: map<Key, Cell>, events: seq<Event>, k: Key, c: Cell)
    requires Valid(g)
    requires SameShape(g.events, events)
    requires forall j | j in data :: j in g.data && data[j] == g.data[j]
    requires Fits(events, k, c)
    ensures Valid(g.(data := data[k := c], events := events))
  {
    forall j | j in data
      ensures Fits(events, j, data[j])
    {
      assert Fits(g.events, j, g.data[j]);
    }
  }

  /** Every stored cell belongs to an event of the arena. */
  lemma OwnersInRange(g: TimeTable)
    requires Valid(g)
    ensures forall k | k in g.data :: g.data[k].Owner() < |g.events|
  {
    forall k | k in g.data
      ensures g.data[k].Owner() < |g.events|
    {
      assert Fits(g.events, k, g.data[k]);
    }
  }

  /** The payload of the event a cell belongs to. */
  function PayloadOf(events: seq<Event>, c: Cell): Payload
    requires c.Owner() < |events|
  {
    events[c.Owner()].ref
  }

  /** A fresh timetable over `[start, end)` with the given rows and slot length. */
  function Init(start: int, end: int, rows: seq<Row>, slotLength: nat): (g: TimeTable)
    requires start < end
    requires |rows| > 0
    requires slotLength > 0
    ensures Valid(g)
    ensures g.start == start && g.end == end && g.rows == rows && g.slot == slotLength
    ensures g.data == map[] && g.events == [] && g.errors == []
  {
    TimeTable(start, end, rows, slotLength, map[], [], [])
  }

  /** The occupant of a position, if any. */
  function Get(g: TimeTable, t: int, row: Row): Option<Cell> {
    if (t, row) in g.data then Some(g.data[(t, row)]) else None
  }

  ghost predicate Increasing(ts: seq<int>) {
    forall i, j | 0 <= i < j < |ts| :: ts[i] < ts[j]
  }

  /** The slot times `lo, lo + slot, ...` that lie before `hi`. */
  function SlotTimes(lo: int, hi: int, slot: nat): (ts: seq<int>)
    requires slot > 0
    ensures forall i | 0 <= i < |ts| :: lo <= ts[i] < hi
    ensures Increasing(ts)
    ensures lo < hi ==> |ts| > 0 && ts[0] == lo
    decreases hi - lo
  {
    if lo >= hi then [] else [lo] + SlotTimes(lo + slot, hi, slot)
  }

  /** One more multiple of `w`. */
  lemma MulSucc(s: int, w: int)
    ensures s * w + w == (s + 1) * w
  {
  }

  /** The slot times are exactly the lattice points of `[lo, hi)`, none missed at the end. */
  lemma {:induction false} SlotTimesLattice(lo: int, hi: int, slot: nat)
    requires slot > 0
    ensures forall i | 0 <= i < |SlotTimes(lo, hi, slot)| :: SlotTimes(lo, hi, slot)[i] == lo + i * slot
    ensures hi <= lo + |SlotTimes(lo, hi, slot)| * slot
    ensures |SlotTimes(lo, hi, slot)| > 0 ==> lo + (|SlotTimes(lo, hi, slot)| - 1) * slot < hi
    decreases hi - lo
  {
    if lo < hi {
      var ts := SlotTimes(lo, hi, slot);
      var rest := SlotTimes(lo + slot, hi, slot);
      SlotTimesLattice(lo + slot, hi, slot);
      assert ts == [lo] + rest;
      forall i | 0 <= i < |ts|
        ensures ts[i] == lo + i * slot
      {
        if i > 0 {
          assert ts[i] == rest[i - 1];
          MulSucc(i - 1, slot);
        }
      }
      MulSucc(|rest|, slot);
      if |rest| > 0 {
        MulSucc(|rest| - 1, slot);
      }
    }
  }
}

=== FILE: placement.dfy ===
/**
 * Placing events: `setEvent` works out the duration, appends the event to
 * the arena and writes its anchor and references one cell at a time, each
 * through the conflict policy of `_setEvent`.
 */
module Placement {
  import opened Wrappers
  import opened Grid
  import opened Views
  import opened Trim

  /**
   * `_setEvent`: write cell `c` of an item whose flexibility is `flex`.
   * An anchor already at the position rejects the write with an
   * `overlap-event` diagnostic. A reference there is overwritten; first an
   * `overlap-reference` diagnostic is logged when neither side is flexible,
   * and the earlier event is trimmed unless a flexible item lands on a fixed
   * item's reference.
   */
  function Place(g: TimeTable, c: Cell, flex: bool): (r: TimeTable)
    requires Valid(g)
    requires Fits(g.events, c.Pos(), c)
    ensures Valid(r)
    ensures r.start == g.start && r.end == g.end && r.rows == g.rows && r.slot == g.slot
    ensures SameShape(g.events, r.events)
    // an empty position takes the cell and nothing is logged
    ensures c.Pos() !in g.data ==>
              r.data == g.data[c.Pos() := c] && r.events == g.events && r.errors == g.errors
    // an anchor rejects the write and is reported
    ensures c.Pos() in g.data && g.data[c.Pos()].Anchor? ==>
              && r.data == g.data && r.events == g.events
              && r.errors == g.errors + [Diagnostic(OverlapEvent, c.time, PayloadOf(g.events, c), PayloadOf(g.events, g.data[c.Pos()]))]
    // a reference is overwritten, with a warning only between two fixed items
    ensures c.Pos() in g.data && g.data[c.Pos()].Reference? ==>
              && c.Pos() in r.data && r.data[c.Pos()] == c
              && r.errors == g.errors +
                   (if !g.data[c.Pos()].flex && !flex
                    then [Diagnostic(OverlapReference, c.time, PayloadOf(g.events, c), PayloadOf(g.events, g.data[c.Pos()]))]
                    else [])
    // no other position gains or changes a cell, and anchors stay
    ensures forall k | k in r.data && k != c.Pos() :: k in g.data && r.data[k] == g.data[k]
    ensures forall k | k in g.data && g.data[k].Anchor? :: k in r.data && r.data[k] == g.data[k]
  {
    var k := c.Pos();
    var payload := PayloadOf(g.events, c);
    if k !in g.data then
      ValidAfterWrite(g, g.data, g.events, k, c);
      g.(data := g.data[k := c])
    else
      var prev := g.data[k];
      match prev
      case Anchor(_, _, p) =>
        g.(errors := g.errors + [Diagnostic(OverlapEvent, c.time, payload, g.events[p].ref)])
      case Reference(_, _, pe, pflex) =>
        var errors :=
          if !pflex && !flex then g.errors + [Diagnostic(OverlapReference, c.time, payload, g.events[pe].ref)]
          else g.errors;
        if !flex || pflex then
          var e0 := g.events[pe];
          var data := TrimRows(g.data, g.rows, SlotTimes(c.time, g.end, g.slot), pe);
          var events := g.events[pe := e0.(columns := SlotsBetween(e0.time, c.time, g.slot))];
          assert SameShape(g.events, events);
          ValidAfterWrite(g, data, events, k, c);
          g.(data := data[k := c], events := events, errors := errors)
        else
          ValidAfterWrite(g, g.data, g.events, k, c);
          g.(data := g.data[k := c], errors := errors)
  }

  /**
   * The number of whole slots from `from` to `t`: Python 2's floor division,
   * which Dafny's Euclidean division matches for a positive slot.
   */
  function SlotsBetween(from: int, t: int, slot: nat): (n: int)
    requires slot > 0
    ensures from + n * slot <= t < from + (n + 1) * slot
    ensures from <= t ==> 0 <= n
  {
    var x := t - from;
    assert x == (x / slot) * slot + x % slot;
    MulSucc(x / slot, slot);
    x / slot
  }

  /**
   * A write onto a reference that trims (a fixed item, or a flexible one
   * over a flexible one) sets the earlier event's `columns` to the whole
   * slots between its start and the write, and changes nothing else in the
   * arena.
   */
  lemma PlaceTrimColumns(g: TimeTable, c: Cell, flex: bool)
    requires Valid(g)
    requires Fits(g.events, c.Pos(), c)
    requires c.Pos() in g.data && g.data[c.Pos()].Reference?
    requires !flex || g.data[c.Pos()].flex
    ensures var r := Place(g, c, flex);
            var e0 := g.events[g.data[c.Pos()].evt];
            var cols := r.events[g.data[c.Pos()].evt].columns;
            && r.events == g.events[g.data[c.Pos()].evt := e0.(columns := cols)]
            && 0 <= cols
            && e0.time + cols * g.slot <= c.time < e0.time + (cols + 1) * g.slot
  {
    var k := c.Pos();
    var prev := g.data[k];
    var e0 := g.events[prev.evt];
    assert Fits(g.events, k, prev);
    var events := g.events[prev.evt := e0.(columns := SlotsBetween(e0.time, c.time, g.slot))];
    var data := TrimRows(g.data, g.rows, SlotTimes(c.time, g.end, g.slot), prev.evt);
    var errors := if !prev.flex && !flex then g.errors + [Diagnostic(OverlapReference, c.time, PayloadOf(g.events, c), e0.ref)] else g.errors;
    assert Place(g, c, flex) == g.(data := data[k := c], events := events, errors := errors);
    var n := SlotsBetween(e0.time, c.time, g.slot);
    assert events[prev.evt].columns == n;
  }

  /**
   * The same write removes exactly the cells the trim walk sweeps: on every
   * row, the earlier event's references from the write's time on, up to the
   * first cell that is not one of them.
   */
  lemma PlaceTrimCells(g: TimeTable, c: Cell, flex: bool)
    requires Valid(g)
    requires Fits(g.events, c.Pos(), c)
    requires c.Pos() in g.data && g.data[c.Pos()].Reference?
    requires !flex || g.data[c.Pos()].flex
    ensures var r := Place(g, c, flex);
            var ts := SlotTimes(c.time, g.end, g.slot);
            forall k | k != c.Pos() ::
              k in r.data <==> k in g.data && !(k.1 in g.rows && Swept(g.data, k.1, ts, g.data[c.Pos()].evt, k))
  {
    var k := c.Pos();
    var prev := g.data[k];
    var ts := SlotTimes(c.time, g.end, g.slot);
    assert Fits(g.events, k, prev);
    assert Place(g, c, flex).data == TrimRows(g.data, g.rows, ts, prev.evt)[k := c];
    TrimRowsSpec(g.data, g.rows, ts, prev.evt);
  }

  /** A flexible item written onto a fixed item's reference trims nothing. */
  lemma PlaceNoTrim(g: TimeTable, c: Cell, flex: bool)
    requires Valid(g)
    requires Fits(g.events, c.Pos(), c)
    requires c.Pos() in g.data && g.data[c.Pos()].Reference?
    requires flex && !g.data[c.Pos()].flex
    ensures var r := Place(g, c, flex);
            && r.events == g.events
            && forall k | k != c.Pos() :: k in r.data <==> k in g.data
  {
  }

  /** A write appends at most one diagnostic and never removes one. */
  lemma PlaceLogsAtMostOne(g: TimeTable, c: Cell, flex: bool)
    requires Valid(g)
    requires Fits(g.events, c.Pos(), c)
    ensures var r := Place(g, c, flex); g.errors <= r.errors && |r.errors| <= |g.errors| + 1
  {
  }

  /** One step of `PlaceAll`. */
  lemma PlaceAllCons(g: TimeTable, cs: seq<Cell>, flex: bool)
    requires Valid(g)
    requires forall c | c in cs :: Fits(g.events, c.Pos(), c)
    requires |cs| > 0
    ensures PlaceAll(g, cs, flex) == PlaceAll(Place(g, cs[0], flex), cs[1..], flex)
  {
  }

  /** Writing a single cell is one `Place`. */
  lemma PlaceAllOne(g: TimeTable, c: Cell, flex: bool)
    requires Valid(g)
    requires Fits(g.events, c.Pos(), c)
    ensures PlaceAll(g, [c], flex) == Place(g, c, flex)
  {
    PlaceAllCons(g, [c], flex);
    assert [c][1..] == [];
  }

  /** Whether a cell fits depends only on the arena's shape, not on the events' `columns`. */
  lemma FitsShape(a: seq<Event>, b: seq<Event>, cs: seq<Cell>)
    requires SameShape(a, b)
    requires forall c | c in cs :: Fits(a, c.Pos(), c)
    ensures forall c | c in cs :: Fits(b, c.Pos(), c)
  {
    forall c | c in cs
      ensures Fits(b, c.Pos(), c)
    {
      assert Fits(a, c.Pos(), c);
    }
  }

  /** Write the cells `cs` in order; a rejected write does not stop the later ones. */
  function PlaceAll(g: TimeTable, cs: seq<Cell>, flex: bool): (r: TimeTable)
    requires Valid(g)
    requires forall c | c in cs :: Fits(g.events, c.Pos(), c)
    ensures Valid(r)
    ensures r.start == g.start && r.end == g.end && r.rows == g.rows && r.slot == g.slot
    ensures SameShape(g.events, r.events)
    ensures g.errors <= r.errors && |r.errors| <= |g.errors| + |cs|
    decreases |cs|
  {
    if cs == [] then g
    else
      var g1 := Place(g, cs[0], flex);
      PlaceLogsAtMostOne(g, cs[0], flex);
      assert forall c | c in cs[1..] :: c in cs;
      FitsShape(g.events, g1.events, cs[1..]);
      var r := PlaceAll(g1, cs[1..], flex);
      SameShapeTrans(g.events, g1.events, r.events);
      r
  }

  /**
   * After the writes every cell either is one of `cs` or was there before,
   * and no anchor was displaced.
   */
  lemma {:induction false} PlaceAllFrame(g: TimeTable, cs: seq<Cell>, flex: bool)
    requires Valid(g)
    requires forall c | c in cs :: Fits(g.events, c.Pos(), c)
    ensures var r := PlaceAll(g, cs, flex);
            forall k | k in r.data :: r.data[k] in cs || (k in g.data && r.data[k] == g.data[k])
    ensures var r := PlaceAll(g, cs, flex);
            forall k | k in g.data && g.data[k].Anchor? :: k in r.data && r.data[k] == g.data[k]
    decreases |cs|
  {
    if cs != [] {
      var g1 := Place(g, cs[0], flex);
      assert forall c | c in cs[1..] :: c in cs;
      FitsShape(g.events, g1.events, cs[1..]);
      PlaceAllFrame(g1, cs[1..], flex);
      PlaceAllCons(g, cs, flex);
    }
  }

  /** References of event `id` at time `t` on each of `rows`. */
  function RowRefs(t: int, rows: seq<Row>, id: EventId, flex: bool): seq<Cell> {
    seq(|rows|, i requires 0 <= i < |rows| => Reference(t, rows[i], id, flex))
  }

  /** The references of the `n` slots from `t` on, slot by slot, each over every row of `rows`. */
  function Steps(t: int, n: int, rows: seq<Row>, id: EventId, flex: bool, slot: nat): (cs: seq<Cell>)
    ensures forall c | c in cs :: c.Reference? && c.evt == id && c.flex == flex && c.time >= t && c.row in rows
    decreases n
  {
    if n <= 0 then []
    else
      var rest := Steps(t + slot, n - 1, rows, id, flex, slot);
      assert forall c | c in rest :: c.time >= t by {
        assert forall c | c in rest :: c.time >= t + slot;
      }
      RowRefs(t, rows, id, flex) + rest
  }

  /**
   * The cells `setEvent` writes, in order: the anchor on the first row,
   * references on the other rows at the start time, then references on
   * every row for each of the next `count - 1` slots.
   */
  function Plan(time: int, rows: seq<Row>, id: EventId, count: int, flex: bool, slot: nat): (cs: seq<Cell>)
    requires |rows| > 0
    ensures forall c | c in cs ::
              && c.Owner() == id && c.row in rows && c.time >= time
              && (c.Anchor? ==> c == Anchor(time, rows[0], id))
              && (c.Reference? ==> c.flex == flex)
  {
    var head := RowRefs(time, rows[1..], id, flex);
    assert forall c | c in head :: c.row in rows by {
      assert forall i | 0 <= i < |rows[1..]| :: rows[1..][i] in rows;
    }
    [Anchor(time, rows[0], id)] + head + Steps(time + slot, count - 1, rows, id, flex, slot)
  }

  /** The start of the `s`-th slot after `t`. */
  function SlotAt(t: int, s: int, slot: nat): int {
    t + s * slot
  }

  /** `n` blocks of `|rows|` references, one block per slot from `t` on. */
  lemma {:induction false} StepsCover(t: int, n: int, rows: seq<Row>, id: EventId, flex: bool, slot: nat)
    ensures |Steps(t, n, rows, id, flex, slot)| == (if n > 0 then n else 0) * |rows|
    ensures forall s: nat, i: nat | s < n && i < |rows| :: Reference(SlotAt(t, s, slot), rows[i], id, flex) in Steps(t, n, rows, id, flex, slot)
    decreases n
  {
    if n > 0 {
      var cs := Steps(t, n, rows, id, flex, slot);
      var head := RowRefs(t, rows, id, flex);
      var rest := Steps(t + slot, n - 1, rows, id, flex, slot);
      StepsCover(t + slot, n - 1, rows, id, flex, slot);
      assert cs == head + rest;
      MulSucc(n - 1, |rows|);
      forall s: nat, i: nat | s < n && i < |rows|
        ensures Reference(SlotAt(t, s, slot), rows[i], id, flex) in cs
      {
        if s == 0 {
          assert head[i] == Reference(t, rows[i], id, flex);
        } else {
          MulSucc(s - 1, slot);
          assert SlotAt(t, s, slot) == SlotAt(t + slot, s - 1, slot);
          assert Reference(SlotAt(t + slot, s - 1, slot), rows[i], id, flex) in rest;
        }
      }
    }
  }

  /**
   * The plan writes `max(count, 1)` slots of `|rows|` cells: the anchor
   * first, a reference on each other row at the start time, and a reference
   * on every row at each of the next `count - 1` slots.
   */
  lemma PlanCover(time: int, rows: seq<Row>, id: EventId, count: int, flex: bool, slot: nat)
    requires |rows| > 0
    ensures var cs := Plan(time, rows, id, count, flex, slot);
            && |cs| == (if count > 1 then count else 1) * |rows|
            && cs[0] == Anchor(time, rows[0], id)
            && (forall i | 1 <= i < |rows| :: Reference(time, rows[i], id, flex) in cs)
            && forall s: nat, i: nat | 1 <= s < count && i < |rows| :: Reference(SlotAt(time, s, slot), rows[i], id, flex) in cs
  {
    var cs := Plan(time, rows, id, count, flex, slot);
    var head := [Anchor(time, rows[0], id)] + RowRefs(time, rows[1..], id, flex);
    var tail := Steps(time + slot, count - 1, rows, id, flex, slot);
    StepsCover(time + slot, count - 1, rows, id, flex, slot);
    assert cs == head + tail;
    MulSucc(if count > 1 then count - 1 else 0, |rows|);
    forall i | 1 <= i < |rows|
      ensures Reference(time, rows[i], id, flex) in cs
    {
      assert head[i] == Reference(time, rows[1..][i - 1], id, flex);
    }
    forall s: nat, i: nat | 1 <= s < count && i < |rows|
      ensures Reference(SlotAt(time, s, slot), rows[i], id, flex) in cs
    {
      MulSucc(s - 1, slot);
      assert SlotAt(time, s, slot) == SlotAt(time + slot, s - 1, slot);
      assert Reference(SlotAt(time + slot, s - 1, slot), rows[i], id, flex) in tail;
    }
  }

  /**
   * The duration `setEvent` works with: the given one, or for a flexible
   * item (duration 0) the minutes up to the next event on its first row
   * found from the following slot on, or up to the grid end when there is
   * none.
   */
  function EffectiveDuration(g: TimeTable, time: int, duration: int, row0: Row): (d: int)
    requires Valid(g)
    requires duration == 0 ==> time < g.end
    ensures duration != 0 ==> d == duration
    ensures duration == 0 ==> d > 0
    ensures duration == 0 && FindFirstEvent(g, time + g.slot, row0).None? ==> time + d == g.end
    ensures duration == 0 && FindFirstEvent(g, time + g.slot, row0).Some? ==>
              && time + d == g.events[FindFirstEvent(g, time + g.slot, row0).value].time
              && d >= g.slot
  {
    if duration != 0 then duration
    else match FindFirstEvent(g, time + g.slot, row0)
      case None => g.end - time
      case Some(n) => g.events[n].time - time
  }

  /** Whole slots in `d` minutes: Python 2's floor division, as Dafny's for a positive slot. */
  function SlotsIn(d: int, slot: nat): (n: int)
    requires slot > 0
    ensures d >= 0 ==> n >= 0
  {
    d / slot
  }

  /** The event record `setEvent` appends to the arena. */
  function NewEvent(g: TimeTable, time: int, o: Payload, duration: int, rows: seq<Row>): (e: Event)
    requires Valid(g)
    requires |rows| > 0
    requires duration == 0 ==> time < g.end
    ensures e.time == time && e.row == rows[0] && e.ref == o && e.rows == |rows|
    ensures duration != 0 ==> e.columns == duration / g.slot
    ensures duration == 0 ==> e.columns >= 0
    ensures duration == 0 && FindFirstEvent(g, time + g.slot, rows[0]).None? ==>
              e.columns == (g.end - time) / g.slot
    ensures duration == 0 && FindFirstEvent(g, time + g.slot, rows[0]).Some? ==>
              e.columns == (g.events[FindFirstEvent(g, time + g.slot, rows[0]).value].time - time) / g.slot
  {
    var columns :=
      if duration != 0 then duration / g.slot
      else match FindFirstEvent(g, time + g.slot, rows[0])
        case None => SlotsIn(g.end - time, g.slot)
        case Some(n) => SlotsIn(g.events[n].time - time, g.slot);
    Event(time, rows[0], o, columns, |rows|)
  }

  /** The appended event spans the whole slots of the effective duration. */
  lemma NewEventColumns(g: TimeTable, time: int, o: Payload, duration: int, rows: seq<Row>)
    requires Valid(g)
    requires |rows| > 0
    requires duration == 0 ==> time < g.end
    ensures NewEvent(g, time, o, duration, rows).columns == EffectiveDuration(g, time, duration, rows[0]) / g.slot
  {
  }

  /** The timetable with event `e` appended to the arena. */
  function WithEvent(g: TimeTable, e: Event): (g1: TimeTable)
    requires Valid(g)
    ensures Valid(g1)
    ensures g1 == g.(events := g.events + [e])
  {
    var g1 := g.(events := g.events + [e]);
    assert forall k | k in g1.data :: Fits(g1.events, k, g1.data[k]) by {
      forall k | k in g1.data
        ensures Fits(g1.events, k, g1.data[k])
      {
        assert Fits(g.events, k, g.data[k]);
      }
    }
    g1
  }

  /** The plan of the event last in the arena fits the arena. */
  lemma PlanFits(events: seq<Event>, time: int, rows: seq<Row>, count: int, flex: bool, slot: nat)
    requires |rows| > 0 && |events| > 0
    requires events[|events| - 1].time == time && events[|events| - 1].row == rows[0]
    ensures forall c | c in Plan(time, rows, |events| - 1, count, flex, slot) :: Fits(events, c.Pos(), c)
  {
  }

  /** What the first write of `PlaceAll` settles survives the later writes. */
  lemma PlaceAllFirst(g: TimeTable, cs: seq<Cell>, flex: bool)
    requires Valid(g)
    requires forall c | c in cs :: Fits(g.events, c.Pos(), c)
    requires |cs| > 0
    ensures var g2 := Place(g, cs[0], flex);
            var r := PlaceAll(g, cs, flex);
            && g2.errors <= r.errors
            && forall k | k in g2.data && g2.data[k].Anchor? :: k in r.data && r.data[k] == g2.data[k]
  {
    var g2 := Place(g, cs[0], flex);
    assert forall c | c in cs[1..] :: c in cs;
    FitsShape(g.events, g2.events, cs[1..]);
    PlaceAllFrame(g2, cs[1..], flex);
  }

  /**
   * A write that does not land on a reference of event `id` leaves that
   * event's arena entry and its cells elsewhere as they were: a trim only
   * touches the event whose reference was overwritten.
   */
  lemma PlaceKeepsOwner(g: TimeTable, c: Cell, flex: bool, id: EventId)
    requires Valid(g)
    requires Fits(g.events, c.Pos(), c)
    requires id < |g.events|
    requires !(c.Pos() in g.data && g.data[c.Pos()].IsReferenceTo(id))
    ensures var r := Place(g, c, flex);
            && r.events[id] == g.events[id]
            && forall k | k in g.data && k != c.Pos() && g.data[k].Owner() == id :: k in r.data && r.data[k] == g.data[k]
  {
    var k := c.Pos();
    if k in g.data && g.data[k].Reference? && (!flex || g.data[k].flex) {
      var prev := g.data[k];
      var e0 := g.events[prev.evt];
      var events := g.events[prev.evt := e0.(columns := SlotsBetween(e0.time, c.time, g.slot))];
      var data := TrimRows(g.data, g.rows, SlotTimes(c.time, g.end, g.slot), prev.evt);
      var errors := if !prev.flex && !flex then g.errors + [Diagnostic(OverlapReference, c.time, PayloadOf(g.events, c), e0.ref)] else g.errors;
      assert Place(g, c, flex) == g.(data := data[k := c], events := events, errors := errors);
      assert prev.evt != id;
    }
  }

  /** Cells at pairwise distinct positions. */
  predicate DistinctPos(cs: seq<Cell>) {
    forall i, j | 0 <= i < j < |cs| :: cs[i].Pos() != cs[j].Pos()
  }

  /**
   * Writing cells of event `id` at distinct positions, none of which holds
   * a reference to `id` beforehand: the event's arena entry is untouched,
   * its other cells stay, and every written cell is stored unless an anchor
   * already held its position.
   */
  lemma {:induction false} PlaceAllOwn(g: TimeTable, cs: seq<Cell>, flex: bool, id: EventId)
    requires Valid(g)
    requires forall c | c in cs :: Fits(g.events, c.Pos(), c)
    requires id < |g.events|
    requires forall c | c in cs :: c.Owner() == id
    requires DistinctPos(cs)
    requires forall c | c in cs :: !(c.Pos() in g.data && g.data[c.Pos()].IsReferenceTo(id))
    ensures var r := PlaceAll(g, cs, flex);
            && r.events[id] == g.events[id]
            && (forall k | k in g.data && g.data[k].Owner() == id && (forall c | c in cs :: c.Pos() != k) ::
                  k in r.data && r.data[k] == g.data[k])
            && forall c | c in cs :: (c.Pos() in g.data && g.data[c.Pos()].Anchor?) || (c.Pos() in r.data && r.data[c.Pos()] == c)
    decreases |cs|
  {
    if cs != [] {
      var c0 := cs[0];
      var tail := cs[1..];
      var g1 := Place(g, c0, flex);
      PlaceKeepsOwner(g, c0, flex, id);
      assert forall c | c in tail :: c in cs;
      FitsShape(g.events, g1.events, tail);
      DistinctTail(cs);
      PlaceAllOwn(g1, tail, flex, id);
      PlaceAllCons(g, cs, flex);
      PlaceAllOwnStep(g, g1, PlaceAll(g1, tail, flex), cs, id);
    }
  }

  /** One step of `PlaceAllOwn`: the first write, then the rest. */
  lemma PlaceAllOwnStep(g: TimeTable, g1: TimeTable, r: TimeTable, cs: seq<Cell>, id: EventId)
    requires |cs| > 0 && cs[0].Owner() == id
    requires forall k | k in g1.data && k != cs[0].Pos() :: k in g.data && g1.data[k] == g.data[k]
    requires !(cs[0].Pos() in g.data && g.data[cs[0].Pos()].Anchor?) ==> cs[0].Pos() in g1.data && g1.data[cs[0].Pos()] == cs[0]
    requires forall k | k in g.data && k != cs[0].Pos() && g.data[k].Owner() == id :: k in g1.data && g1.data[k] == g.data[k]
    requires forall c | c in cs[1..] :: c.Pos() != cs[0].Pos()
    requires forall k | k in g1.data && g1.data[k].Owner() == id && (forall c | c in cs[1..] :: c.Pos() != k) ::
               k in r.data && r.data[k] == g1.data[k]
    requires forall c | c in cs[1..] :: (c.Pos() in g1.data && g1.data[c.Pos()].Anchor?) || (c.Pos() in r.data && r.data[c.Pos()] == c)
    ensures forall k | k in g.data && g.data[k].Owner() == id && (forall c | c in cs :: c.Pos() != k) :: k in r.data && r.data[k] == g.data[k]
    ensures forall c | c in cs :: (c.Pos() in g.data && g.data[c.Pos()].Anchor?) || (c.Pos() in r.data && r.data[c.Pos()] == c)
  {
    var c0 := cs[0];
    forall k | k in g.data && g.data[k].Owner() == id && (forall c | c in cs :: c.Pos() != k)
      ensures k in r.data && r.data[k] == g.data[k]
    {
      assert c0 in cs;
      assert forall c | c in cs[1..] :: c.Pos() != k by {
        assert forall c | c in cs[1..] :: c in cs;
      }
    }
    forall c | c in cs
      ensures (c.Pos() in g.data && g.data[c.Pos()].Anchor?) || (c.Pos() in r.data && r.data[c.Pos()] == c)
    {
      if c != c0 {
        assert c in cs[1..] by {
          var i :| 0 <= i < |cs| && cs[i] == c;
          assert i > 0 && cs[1..][i - 1] == c;
        }
      }
    }
  }

  /** The first cell of a run at distinct positions is at none of the later ones. */
  lemma DistinctTail(cs: seq<Cell>)
    requires |cs| > 0 && DistinctPos(cs)
    ensures DistinctPos(cs[1..])
    ensures forall c | c in cs[1..] :: c.Pos() != cs[0].Pos()
  {
    assert forall j | 0 <= j < |cs[1..]| :: cs[1..][j] == cs[j + 1];
  }

  /** A row of references at time `t` on distinct rows sits at distinct positions. */
  lemma RowRefsDistinct(t: int, rows: seq<Row>, id: EventId, flex: bool)
    requires forall i, j | 0 <= i < j < |rows| :: rows[i] != rows[j]
    ensures DistinctPos(RowRefs(t, rows, id, flex))
    ensures forall c | c in RowRefs(t, rows, id, flex) :: c.time == t
  {
  }

  /** Cells of two runs at distinct positions, no position shared between them. */
  lemma DistinctConcat(a: seq<Cell>, b: seq<Cell>)
    requires DistinctPos(a) && DistinctPos(b)
    requires forall x, y | x in a && y in b :: x.Pos() != y.Pos()
    ensures DistinctPos(a + b)
  {
    forall i, j | 0 <= i < j < |a + b|
      ensures (a + b)[i].Pos() != (a + b)[j].Pos()
    {
      if j < |a| {
        assert (a + b)[i] == a[i] && (a + b)[j] == a[j];
      } else if i < |a| {
        assert (a + b)[i] == a[i] && (a + b)[j] == b[j - |a|];
        assert a[i] in a && b[j - |a|] in b;
      } else {
        assert (a + b)[i] == b[i - |a|] && (a + b)[j] == b[j - |a|];
      }
    }
  }

  lemma {:induction false} StepsDistinct(t: int, n: int, rows: seq<Row>, id: EventId, flex: bool, slot: nat)
    requires slot > 0
    requires forall i, j | 0 <= i < j < |rows| :: rows[i] != rows[j]
    ensures DistinctPos(Steps(t, n, rows, id, flex, slot))
    decreases n
  {
    if n > 0 {
      var rest := Steps(t + slot, n - 1, rows, id, flex, slot);
      StepsDistinct(t + slot, n - 1, rows, id, flex, slot);
      RowRefsDistinct(t, rows, id, flex);
      DistinctConcat(RowRefs(t, rows, id, flex), rest);
    }
  }

  /** On distinct rows and with a positive slot, the plan writes each position at most once. */
  lemma PlanDistinct(time: int, rows: seq<Row>, id: EventId, count: int, flex: bool, slot: nat)
    requires |rows| > 0 && slot > 0
    requires forall i, j | 0 <= i < j < |rows| :: rows[i] != rows[j]
    ensures DistinctPos(Plan(time, rows, id, count, flex, slot))
  {
    var head := [Anchor(time, rows[0], id)] + RowRefs(time, rows[1..], id, flex);
    var tail := Steps(time + slot, count - 1, rows, id, flex, slot);
    assert Plan(time, rows, id, count, flex, slot) == head + tail;
    HeadDistinct(time, rows, id, flex);
    StepsDistinct(time + slot, count - 1, rows, id, flex, slot);
    DistinctConcat(head, tail);
  }

  /** The cells at the start time, the anchor and a reference on each further row, one per row. */
  lemma HeadDistinct(time: int, rows: seq<Row>, id: EventId, flex: bool)
    requires |rows| > 0
    requires forall i, j | 0 <= i < j < |rows| :: rows[i] != rows[j]
    ensures var head := [Anchor(time, rows[0], id)] + RowRefs(time, rows[1..], id, flex);
            DistinctPos(head) && forall c | c in head :: c.time == time
  {
    var head := [Anchor(time, rows[0], id)] + RowRefs(time, rows[1..], id, flex);
    forall i | 0 <= i < |head|
      ensures head[i].Pos() == (time, rows[i])
    {
      if i > 0 {
        assert head[i] == Reference(time, rows[1..][i - 1], id, flex);
      }
    }
  }

  /**
   * `setEvent(time, o, duration, rows)`. The new event is appended to the
   * arena and its cells are written as `Plan` lays them out; a rejected
   * write does not stop the others and nothing is rolled back.
   */
  function SetEvent(g: TimeTable, time: int, o: Payload, duration: int, rows: seq<Row>): (r: TimeTable)
    requires Valid(g)
    requires |rows| > 0
    requires forall row | row in rows :: row in g.rows
    requires duration == 0 ==> time < g.end
    ensures Valid(r)
    ensures r.start == g.start && r.end == g.end && r.rows == g.rows && r.slot == g.slot
    ensures |r.events| == |g.events| + 1
    ensures SameShape(g.events, r.events[..|g.events|])
    ensures var e := r.events[|g.events|]; e.time == time && e.row == rows[0] && e.ref == o && e.rows == |rows|
    ensures g.errors <= r.errors
    ensures forall k | k in g.data && g.data[k].Anchor? :: k in r.data && r.data[k] == g.data[k]
  {
    var flex := duration == 0;
    var e := NewEvent(g, time, o, duration, rows);
    var g1 := WithEvent(g, e);
    var plan := Plan(time, rows, |g.events|, e.columns, flex, g.slot);
    PlanFits(g1.events, time, rows, e.columns, flex, g.slot);
    var r := PlaceAll(g1, plan, flex);
    assert r.events[..|g.events|] == r.events[..|g1.events| - 1];
    PlaceAllFrame(g1, plan, flex);
    r
  }

  /** `setEvent` is the plan written into the arena extended with the new event. */
  lemma SetEventSteps(g: TimeTable, time: int, o: Payload, duration: int, rows: seq<Row>)
    requires Valid(g)
    requires |rows| > 0
    requires forall row | row in rows :: row in g.rows
    requires duration == 0 ==> time < g.end
    ensures var e := NewEvent(g, time, o, duration, rows);
            SetEvent(g, time, o, duration, rows)
              == PlaceAll(WithEvent(g, e), Plan(time, rows, |g.events|, e.columns, duration == 0, g.slot), duration == 0)
  {
  }

  /**
   * On distinct rows, no write of `setEvent` trims the new event, so it
   * keeps the record `NewEvent` computes, and every cell of its plan is
   * stored unless an anchor already held that position.
   */
  lemma SetEventWritesPlan(g: TimeTable, time: int, o: Payload, duration: int, rows: seq<Row>)
    requires Valid(g)
    requires |rows| > 0
    requires forall row | row in rows :: row in g.rows
    requires duration == 0 ==> time < g.end
    requires forall i, j | 0 <= i < j < |rows| :: rows[i] != rows[j]
    ensures var r := SetEvent(g, time, o, duration, rows);
            var e := NewEvent(g, time, o, duration, rows);
            && r.events[|g.events|] == e
            && forall c | c in Plan(time, rows, |g.events|, e.columns, duration == 0, g.slot) ::
                 (c.Pos() in g.data && g.data[c.Pos()].Anchor?) || (c.Pos() in r.data && r.data[c.Pos()] == c)
  {
    var flex := duration == 0;
    var e := NewEvent(g, time, o, duration, rows);
    var g1 := WithEvent(g, e);
    var plan := Plan(time, rows, |g.events|, e.columns, flex, g.slot);
    PlanFits(g1.events, time, rows, e.columns, flex, g.slot);
    SetEventSteps(g, time, o, duration, rows);
    PlanDistinct(time, rows, |g.events|, e.columns, flex, g.slot);
    OwnersInRange(g);
    PlaceAllOwn(g1, plan, flex, |g.events|);
  }

  /**
   * Every cell `setEvent` adds belongs to the new event, sits on one of its
   * rows no earlier than its start, and a reference among them carries the
   * event's flexibility.
   */
  lemma SetEventCells(g: TimeTable, time: int, o: Payload, duration: int, rows: seq<Row>)
    requires Valid(g)
    requires |rows| > 0
    requires forall row | row in rows :: row in g.rows
    requires duration == 0 ==> time < g.end
    ensures var r := SetEvent(g, time, o, duration, rows);
            forall k | k in r.data && !(k in g.data && r.data[k] == g.data[k]) ::
              r.data[k].Owner() == |g.events| && k.1 in rows && k.0 >= time
    ensures var r := SetEvent(g, time, o, duration, rows);
            forall k | k in r.data && r.data[k].IsReferenceTo(|g.events|) :: r.data[k].flex == (duration == 0)
  {
    var flex := duration == 0;
    var e := NewEvent(g, time, o, duration, rows);
    var g1 := WithEvent(g, e);
    var plan := Plan(time, rows, |g.events|, e.columns, flex, g.slot);
    PlanFits(g1.events, time, rows, e.columns, flex, g.slot);
    SetEventSteps(g, time, o, duration, rows);
    var r := PlaceAll(g1, plan, flex);
    PlaceAllFrame(g1, plan, flex);
    OwnersInRange(g);
    forall k | k in r.data && !(k in g.data && r.data[k] == g.data[k])
      ensures r.data[k].Owner() == |g.events| && k.1 in rows && k.0 >= time
    {
      assert r.data[k] in plan;
    }
    forall k | k in r.data && r.data[k].IsReferenceTo(|g.events|)
      ensures r.data[k].flex == flex
    {
      assert r.data[k] in plan;
    }
  }

  /**
   * The anchor write of `setEvent`: unless an anchor already holds the
   * position, the new event's anchor ends up there; if one does, it stays
   * and the first diagnostic this call logs is the `overlap-event` naming
   * both payloads.
   */
  lemma SetEventAnchor(g: TimeTable, time: int, o: Payload, duration: int, rows: seq<Row>)
    requires Valid(g)
    requires |rows| > 0
    requires forall row | row in rows :: row in g.rows
    requires duration == 0 ==> time < g.end
    ensures var r := SetEvent(g, time, o, duration, rows);
            var k := (time, rows[0]);
            && (!(k in g.data && g.data[k].Anchor?) ==> k in r.data && r.data[k] == Anchor(time, rows[0], |g.events|))
            && (k in g.data && g.data[k].Anchor? ==>
                  && k in r.data && r.data[k] == g.data[k]
                  && |r.errors| > |g.errors|
                  && r.errors[|g.errors|] == Diagnostic(OverlapEvent, time, o, g.events[g.data[k].id].ref))
  {
    var flex := duration == 0;
    var e := NewEvent(g, time, o, duration, rows);
    var g1 := WithEvent(g, e);
    var plan := Plan(time, rows, |g.events|, e.columns, flex, g.slot);
    assert SetEvent(g, time, o, duration, rows) == PlaceAll(g1, plan, flex);
    var anchor := Anchor(time, rows[0], |g.events|);
    assert plan[0] == anchor;
    PlaceAllFirst(g1, plan, flex);
    var k := (time, rows[0]);
    if k in g.data && g.data[k].Anchor? {
      assert Fits(g.events, k, g.data[k]);
    }
  }
}

=== FILE: scenarios.dfy ===
/**
 * Worked timetables that pin down the conflict policy on small grids.
 * Times are minutes since midnight (540 is 09:00), slots are 15 minutes.
 * Each scenario is split into small steps over literal grid states.
 */
module Scenarios {
  import opened Wrappers
  import opened Grid
  import opened Views
  import opened Trim
  import opened Placement

  const Talk := Event(540, "A", 1, 2, 1)
  const Flex := Event(555, "A", 2, 3, 1)
  const Lunch := Event(720, "A", 7, 2, 2)

  /** A fixed item of two slots on row A at 09:00, on an empty 09:00-10:00 grid. */
  lemma TalkAtNine(g0: TimeTable)
    requires g0 == Init(540, 600, ["A", "B"], 15)
    ensures SetEvent(g0, 540, 1, 30, ["A"]) == g0.(
              data := map[(540, "A") := Anchor(540, "A", 0), (555, "A") := Reference(555, "A", 0, false)],
              events := [Talk])
  {
    var e := NewEvent(g0, 540, 1, 30, ["A"]);
    assert e == Talk;
    var h := WithEvent(g0, e);
    var plan := Plan(540, ["A"], 0, 2, false, 15);
    assert plan == [Anchor(540, "A", 0), Reference(555, "A", 0, false)] by {
      assert RowRefs(540, ["A"][1..], 0, false) == [];
      assert Steps(570, 0, ["A"], 0, false, 15) == [];
      assert RowRefs(555, ["A"], 0, false) == [Reference(555, "A", 0, false)];
    }
    SetEventSteps(g0, 540, 1, 30, ["A"]);
    var a := Place(h, plan[0], false);
    var b := Place(a, plan[1], false);
    assert PlaceAll(h, plan, false) == PlaceAll(a, plan[1..], false) == PlaceAll(b, [], false);
  }

  /** The grid after `TalkAtNine`. */
  function AfterTalk(): (g: TimeTable)
    ensures Valid(g)
  {
    var g := Init(540, 600, ["A", "B"], 15).(
      data := map[(540, "A") := Anchor(540, "A", 0), (555, "A") := Reference(555, "A", 0, false)],
      events := [Talk]);
    assert forall k | k in g.data :: Fits(g.events, k, g.data[k]);
    g
  }

  lemma SlotsFromHalfPast()
    ensures SlotTimes(570, 600, 15) == [570, 585]
  {
    assert SlotTimes(600, 600, 15) == [];
    assert SlotTimes(585, 600, 15) == [585];
  }

  /** Row A holds no item from 09:30 on. */
  lemma NothingAfterTalk(g1: TimeTable)
    requires g1 == AfterTalk()
    ensures FindFirstEvent(g1, 570, "A") == None
  {
    SlotsFromHalfPast();
    assert [570, 585][1..] == [585];
    assert [585][1..] == [];
    assert RowCells(g1.data, "A", [570, 585]) == RowCells(g1.data, "A", [585]) == RowCells(g1.data, "A", []) == [];
  }

  // ---------------------------------------------------------------------
  // A flexible item onto a fixed item's reference
  // ---------------------------------------------------------------------

  /** With nothing after it on row A, the flexible item stretches to the grid end. */
  lemma FlexEvent(g1: TimeTable)
    requires g1 == AfterTalk()
    ensures NewEvent(g1, 555, 2, 0, ["A"]) == Flex
  {
    NothingAfterTalk(g1);
  }

  lemma FlexPlan()
    ensures Plan(555, ["A"], 1, 3, true, 15) == [Anchor(555, "A", 1), Reference(570, "A", 1, true), Reference(585, "A", 1, true)]
  {
    assert RowRefs(555, ["A"][1..], 1, true) == [];
    assert Steps(600, 0, ["A"], 1, true, 15) == [];
    assert Steps(585, 1, ["A"], 1, true, 15) == [Reference(585, "A", 1, true)];
    assert RowRefs(570, ["A"], 1, true) == [Reference(570, "A", 1, true)];
  }

  /** The grid after `TalkAtNine` with the flexible item in the arena and `n` of its cells written. */
  function FlexState(n: nat): (g: TimeTable)
    requires n <= 3
    ensures Valid(g)
  {
    var d0 := map[(540, "A") := Anchor(540, "A", 0), (555, "A") := Reference(555, "A", 0, false)];
    var d1 := d0[(555, "A") := Anchor(555, "A", 1)];
    var d2 := d1[(570, "A") := Reference(570, "A", 1, true)];
    var d3 := d2[(585, "A") := Reference(585, "A", 1, true)];
    var g := TimeTable(540, 600, ["A", "B"], 15,
      if n == 0 then d0 else if n == 1 then d1 else if n == 2 then d2 else d3,
      [Talk, Flex], []);
    assert forall k | k in g.data :: Fits(g.events, k, g.data[k]);
    g
  }

  lemma FlexStep0()
    ensures Place(FlexState(0), Anchor(555, "A", 1), true) == FlexState(1)
  {
  }

  lemma FlexStep1()
    ensures Place(FlexState(1), Reference(570, "A", 1, true), true) == FlexState(2)
  {
  }

  lemma FlexStep2()
    ensures Place(FlexState(2), Reference(585, "A", 1, true), true) == FlexState(3)
  {
  }

  /** Writing the flexible item's plan, one cell at a time. */
  lemma FlexWrites()
    ensures PlaceAll(FlexState(0), Plan(555, ["A"], 1, 3, true, 15), true) == FlexState(3)
  {
    var plan := Plan(555, ["A"], 1, 3, true, 15);
    FlexPlan();
    PlaceAllCons(FlexState(0), plan, true);
    FlexStep0();
    PlaceAllCons(FlexState(1), plan[1..], true);
    FlexStep1();
    PlaceAllCons(FlexState(2), plan[2..], true);
    FlexStep2();
    assert plan[2..][1..] == [];
  }

  lemma FlexFromAfterTalk(g1: TimeTable)
    requires g1 == AfterTalk()
    ensures PlaceAll(WithEvent(g1, Flex), Plan(555, ["A"], |g1.events|, Flex.columns, true, g1.slot), true) == FlexState(3)
  {
    assert WithEvent(g1, Flex) == FlexState(0);
    FlexWrites();
  }

  /**
   * A flexible item placed onto the reference of a fixed one: no warning,
   * no trim (the fixed item keeps its two slots), and the flexible item's
   * anchor takes the slot and stretches to the grid end.
   */
  lemma FlexOntoFixedReference(g1: TimeTable)
    requires g1 == AfterTalk()
    ensures SetEvent(g1, 555, 2, 0, ["A"]) == FlexState(3)
  {
    FlexEvent(g1);
    SetEventSteps(g1, 555, 2, 0, ["A"]);
    FlexFromAfterTalk(g1);
  }

  // ---------------------------------------------------------------------
  // A fixed item onto a fixed item's anchor
  // ---------------------------------------------------------------------

  lemma RejectedPlan()
    ensures Plan(540, ["A"], 1, 1, false, 15) == [Anchor(540, "A", 1)]
  {
    assert RowRefs(540, ["A"][1..], 1, false) == [];
    assert Steps(555, 0, ["A"], 1, false, 15) == [];
  }

  /**
   * A fixed item placed on the anchor of another: the overlap is reported
   * and the grid keeps the first item; the second never reaches a cell.
   */
  lemma RejectedAnchor(g1: TimeTable)
    requires g1 == AfterTalk()
    ensures SetEvent(g1, 540, 2, 15, ["A"]) == g1.(
              events := [Talk, Event(540, "A", 2, 1, 1)],
              errors := [Diagnostic(OverlapEvent, 540, 2, 1)])
  {
    assert NewEvent(g1, 540, 2, 15, ["A"]) == Event(540, "A", 2, 1, 1);
    SetEventSteps(g1, 540, 2, 15, ["A"]);
    RejectedPlan();
    var h := WithEvent(g1, Event(540, "A", 2, 1, 1));
    PlaceAllOne(h, Anchor(540, "A", 1), false);
  }

  // ---------------------------------------------------------------------
  // A fixed item onto a fixed item's reference
  // ---------------------------------------------------------------------

  /** The grid after `TalkAtNine` with a second fixed item, before and after its anchor is written. */
  function ClashState(placed: bool): (g: TimeTable)
    ensures Valid(g)
  {
    var g := TimeTable(540, 600, ["A", "B"], 15,
      if placed then map[(540, "A") := Anchor(540, "A", 0), (555, "A") := Anchor(555, "A", 1)]
      else map[(540, "A") := Anchor(540, "A", 0), (555, "A") := Reference(555, "A", 0, false)],
      [Talk.(columns := if placed then 1 else 2), Event(555, "A", 2, 1, 1)],
      if placed then [Diagnostic(OverlapReference, 555, 2, 1)] else []);
    assert forall k | k in g.data :: Fits(g.events, k, g.data[k]);
    g
  }

  lemma ClashPlan()
    ensures Plan(555, ["A"], 1, 1, false, 15) == [Anchor(555, "A", 1)]
  {
    assert RowRefs(555, ["A"][1..], 1, false) == [];
    assert Steps(570, 0, ["A"], 1, false, 15) == [];
  }

  lemma SlotsFromQuarterPast()
    ensures SlotTimes(555, 600, 15) == [555, 570, 585]
  {
    assert SlotTimes(600, 600, 15) == [];
    assert SlotTimes(585, 600, 15) == [585];
    assert SlotTimes(570, 600, 15) == [570, 585];
  }

  /** On row A the walk from 09:15 removes the talk's only reference and finds nothing after it. */
  lemma ClashScanA()
    ensures TrimScan(ClashState(false).data, "A", [555, 570, 585], 0) == map[(540, "A") := Anchor(540, "A", 0)]
  {
    var d := ClashState(false).data;
    var d1 := map[(540, "A") := Anchor(540, "A", 0)];
    assert d - {(555, "A")} == d1;
    assert [555, 570, 585][1..] == [570, 585];
    assert [570, 585][1..] == [585];
    assert [585][1..] == [];
    assert TrimScan(d1, "A", [570, 585], 0) == TrimScan(d1, "A", [585], 0) == TrimScan(d1, "A", [], 0) == d1;
  }

  /** Row B holds nothing, so the walk there removes nothing. */
  lemma ClashScanB()
    ensures var d1 := map[(540, "A") := Anchor(540, "A", 0)];
            TrimScan(d1, "B", [555, 570, 585], 0) == d1
  {
    var d1 := map[(540, "A") := Anchor(540, "A", 0)];
    assert [555, 570, 585][1..] == [570, 585];
    assert [570, 585][1..] == [585];
    assert [585][1..] == [];
    assert TrimScan(d1, "B", [570, 585], 0) == TrimScan(d1, "B", [585], 0) == TrimScan(d1, "B", [], 0) == d1;
  }

  /** The trim walk from 09:15 over both rows. */
  lemma ClashTrim()
    ensures TrimRows(ClashState(false).data, ["A", "B"], [555, 570, 585], 0) == map[(540, "A") := Anchor(540, "A", 0)]
  {
    var d1 := map[(540, "A") := Anchor(540, "A", 0)];
    ClashScanA();
    ClashScanB();
    assert ["A", "B"][1..] == ["B"];
    assert ["B"][1..] == [];
    assert TrimRows(d1, ["B"], [555, 570, 585], 0) == TrimRows(d1, [], [555, 570, 585], 0) == d1;
  }

  lemma ClashPlaced()
    ensures ClashState(false).(
              data := map[(540, "A") := Anchor(540, "A", 0)][(555, "A") := Anchor(555, "A", 1)],
              events := ClashState(false).events[0 := Talk.(columns := 1)],
              errors := [Diagnostic(OverlapReference, 555, 2, 1)])
         == ClashState(true)
  {
  }

  lemma ClashStep()
    ensures Place(ClashState(false), Anchor(555, "A", 1), false) == ClashState(true)
  {
    var g := ClashState(false);
    var c := Anchor(555, "A", 1);
    assert g.data[c.Pos()] == Reference(555, "A", 0, false);
    SlotsFromQuarterPast();
    ClashTrim();
    assert SlotsBetween(540, 555, 15) == 1;
    assert Place(g, c, false) == g.(
      data := map[(540, "A") := Anchor(540, "A", 0)][c.Pos() := c],
      events := g.events[0 := Talk.(columns := 1)],
      errors := [Diagnostic(OverlapReference, 555, 2, 1)]);
    ClashPlaced();
  }

  lemma ClashWrites()
    ensures PlaceAll(ClashState(false), [Anchor(555, "A", 1)], false) == ClashState(true)
  {
    PlaceAllOne(ClashState(false), Anchor(555, "A", 1), false);
    ClashStep();
  }

  lemma ClashFromAfterTalk(g1: TimeTable)
    requires g1 == AfterTalk()
    ensures PlaceAll(WithEvent(g1, Event(555, "A", 2, 1, 1)), Plan(555, ["A"], |g1.events|, 1, false, g1.slot), false)
         == ClashState(true)
  {
    ClashPlan();
    assert WithEvent(g1, Event(555, "A", 2, 1, 1)) == ClashState(false);
    ClashWrites();
  }

  /**
   * A fixed item placed on the reference of another fixed item: the overlap
   * is reported, and the earlier item is cut back to end where the new one
   * starts.
   */
  lemma FixedOntoFixedReference(g1: TimeTable)
    requires g1 == AfterTalk()
    ensures SetEvent(g1, 555, 2, 15, ["A"]) == ClashState(true)
  {
    assert NewEvent(g1, 555, 2, 15, ["A"]) == Event(555, "A", 2, 1, 1);
    SetEventSteps(g1, 555, 2, 15, ["A"]);
    ClashFromAfterTalk(g1);
  }

  // ---------------------------------------------------------------------
  // A fixed item onto a flexible item's reference
  // ---------------------------------------------------------------------

  /** A flexible lunch over rows A and B from 12:00 to the 12:30 grid end, with a talk's arena entry added. */
  function LunchState(trimmed: bool): (g: TimeTable)
    ensures Valid(g)
  {
    var g := TimeTable(720, 750, ["A", "B"], 15,
      if trimmed then
        map[(720, "A") := Anchor(720, "A", 0), (720, "B") := Reference(720, "B", 0, true),
            (735, "A") := Anchor(735, "A", 1)]
      else
        map[(720, "A") := Anchor(720, "A", 0), (720, "B") := Reference(720, "B", 0, true),
            (735, "A") := Reference(735, "A", 0, true), (735, "B") := Reference(735, "B", 0, true)],
      [Lunch.(columns := if trimmed then 1 else 2), Event(735, "A", 8, 1, 1)],
      []);
    assert forall k | k in g.data :: Fits(g.events, k, g.data[k]);
    g
  }

  lemma LunchSlots()
    ensures SlotTimes(735, 750, 15) == [735]
  {
    assert SlotTimes(750, 750, 15) == [];
  }

  /** The trim walk from 12:15 removes the lunch's references on both rows. */
  lemma LunchTrim()
    ensures TrimRows(LunchState(false).data, ["A", "B"], [735], 0)
         == map[(720, "A") := Anchor(720, "A", 0), (720, "B") := Reference(720, "B", 0, true)]
  {
    var d := LunchState(false).data;
    var d1 := map[(720, "A") := Anchor(720, "A", 0), (720, "B") := Reference(720, "B", 0, true),
                  (735, "B") := Reference(735, "B", 0, true)];
    var d2 := map[(720, "A") := Anchor(720, "A", 0), (720, "B") := Reference(720, "B", 0, true)];
    assert d - {(735, "A")} == d1;
    assert d1 - {(735, "B")} == d2;
    assert [735][1..] == [];
    assert ["A", "B"][1..] == ["B"];
    assert ["B"][1..] == [];
    assert TrimScan(d, "A", [735], 0) == TrimScan(d1, "A", [], 0) == d1;
    assert TrimScan(d1, "B", [735], 0) == TrimScan(d2, "B", [], 0) == d2;
    assert TrimRows(d1, ["B"], [735], 0) == TrimRows(d2, [], [735], 0) == d2;
  }

  lemma LunchTrimmed()
    ensures LunchState(false).(
              data := map[(720, "A") := Anchor(720, "A", 0), (720, "B") := Reference(720, "B", 0, true)][(735, "A") := Anchor(735, "A", 1)],
              events := LunchState(false).events[0 := Lunch.(columns := 1)])
         == LunchState(true)
  {
  }

  /**
   * A fixed talk written onto a reference of a flexible lunch: no warning,
   * and the lunch is cut back to end where the talk starts, on every row it
   * spans.
   */
  lemma FixedIntoFlexibleLunch()
    ensures Place(LunchState(false), Anchor(735, "A", 1), false) == LunchState(true)
  {
    var g := LunchState(false);
    var c := Anchor(735, "A", 1);
    assert g.data[c.Pos()] == Reference(735, "A", 0, true);
    LunchSlots();
    LunchTrim();
    assert SlotsBetween(720, 735, 15) == 1;
    assert Place(g, c, false) == g.(
      data := map[(720, "A") := Anchor(720, "A", 0), (720, "B") := Reference(720, "B", 0, true)][c.Pos() := c],
      events := g.events[0 := Lunch.(columns := 1)]);
    LunchTrimmed();
  }
}

=== FILE: trim.dfy ===
/**
 * The trim walk of the conflict policy: when a cell lands on a reference of
 * an earlier event, the earlier event's references from that time onward
 * are deleted, row by row, up to the first present cell that is not one of
 * them. Absent slots are skipped, not treated as the end of the run.
 */
module Trim {
  import opened Grid

  /** The walk on one row over the slot times `ts`. */
  function TrimScan(data: map<Key, Cell>, row: Row, ts: seq<int>, id: EventId): (r: map<Key, Cell>)
    ensures forall k | k in r :: k in data && r[k] == data[k]
    ensures forall k | k in data && !data[k].IsReferenceTo(id) :: k in r
    ensures forall k | k in data && k.1 != row :: k in r
    decreases |ts|
  {
    if ts == [] then data
    else
      var k := (ts[0], row);
      if k !in data then TrimScan(data, row, ts[1..], id)
      else if data[k].IsReferenceTo(id) then TrimScan(data - {k}, row, ts[1..], id)
      else data
  }

  /** The walk on every row of `rows`, one after the other. */
  function TrimRows(data: map<Key, Cell>, rows: seq<Row>, ts: seq<int>, id: EventId): (r: map<Key, Cell>)
    ensures forall k | k in r :: k in data && r[k] == data[k]
    ensures forall k | k in data && !data[k].IsReferenceTo(id) :: k in r
    decreases |rows|
  {
    if rows == [] then data else TrimRows(TrimScan(data, rows[0], ts, id), rows[1..], ts, id)
  }

  /** Every present cell on `row` at the first `i` times of `ts` is a reference to `id`. */
  ghost predicate ClearBefore(data: map<Key, Cell>, row: Row, ts: seq<int>, id: EventId, i: int)
    requires 0 <= i <= |ts|
  {
    forall j | 0 <= j < i :: (ts[j], row) in data ==> data[(ts[j], row)].IsReferenceTo(id)
  }

  /**
   * Key `k` is swept by the walk on `row`: it holds a reference to `id` at
   * one of the times `ts`, and every present cell before it on the walk is
   * one too.
   */
  ghost predicate Swept(data: map<Key, Cell>, row: Row, ts: seq<int>, id: EventId, k: Key) {
    && k.1 == row
    && k in data
    && data[k].IsReferenceTo(id)
    && exists i | 0 <= i < |ts| :: ts[i] == k.0 && ClearBefore(data, row, ts, id, i)
  }

  /** Dropping the first time of the walk, when its slot cannot stop the walk. */
  lemma ClearShift(data: map<Key, Cell>, d1: map<Key, Cell>, row: Row, ts: seq<int>, id: EventId, i: int)
    requires Increasing(ts)
    requires 0 < i <= |ts|
    requires (ts[0], row) in data ==> data[(ts[0], row)].IsReferenceTo(id)
    requires forall k | k != (ts[0], row) :: (k in d1 <==> k in data) && (k in d1 ==> d1[k] == data[k])
    ensures ClearBefore(data, row, ts, id, i) <==> ClearBefore(d1, row, ts[1..], id, i - 1)
  {
    assert forall j | 0 < j < |ts| :: ts[j] == ts[1..][j - 1] && ts[j] != ts[0];
    if ClearBefore(d1, row, ts[1..], id, i - 1) {
      forall j | 0 <= j < i && (ts[j], row) in data
        ensures data[(ts[j], row)].IsReferenceTo(id)
      {
        if j > 0 {
          assert (ts[1..][j - 1], row) in d1;
        }
      }
    }
  }

  lemma SweptShift(data: map<Key, Cell>, d1: map<Key, Cell>, row: Row, ts: seq<int>, id: EventId, k: Key)
    requires Increasing(ts) && |ts| > 0
    requires (ts[0], row) in data ==> data[(ts[0], row)].IsReferenceTo(id)
    requires forall k' | k' != (ts[0], row) :: (k' in d1 <==> k' in data) && (k' in d1 ==> d1[k'] == data[k'])
    requires k != (ts[0], row)
    ensures Swept(data, row, ts, id, k) <==> Swept(d1, row, ts[1..], id, k)
  {
    var rest := ts[1..];
    if Swept(data, row, ts, id, k) {
      var i :| 0 <= i < |ts| && ts[i] == k.0 && ClearBefore(data, row, ts, id, i);
      assert i > 0;
      ClearShift(data, d1, row, ts, id, i);
      assert rest[i - 1] == k.0;
    }
    if Swept(d1, row, rest, id, k) {
      var i :| 0 <= i < |rest| && rest[i] == k.0 && ClearBefore(d1, row, rest, id, i);
      ClearShift(data, d1, row, ts, id, i + 1);
      assert ts[i + 1] == k.0;
    }
  }

  /** The walk on one row deletes exactly the swept keys. */
  lemma {:induction false} TrimScanSpec(data: map<Key, Cell>, row: Row, ts: seq<int>, id: EventId)
    requires Increasing(ts)
    ensures forall k :: k in TrimScan(data, row, ts, id) <==> k in data && !Swept(data, row, ts, id, k)
    decreases |ts|
  {
    if ts != [] {
      var k0 := (ts[0], row);
      var rest := ts[1..];
      assert Increasing(rest);
      if k0 !in data {
        TrimScanSpec(data, row, rest, id);
        forall k | k != k0
          ensures Swept(data, row, ts, id, k) <==> Swept(data, row, rest, id, k)
        {
          SweptShift(data, data, row, ts, id, k);
        }
      } else if data[k0].IsReferenceTo(id) {
        var d1 := data - {k0};
        TrimScanSpec(d1, row, rest, id);
        forall k | k != k0
          ensures Swept(data, row, ts, id, k) <==> Swept(d1, row, rest, id, k)
        {
          SweptShift(data, d1, row, ts, id, k);
        }
        assert Swept(data, row, ts, id, k0) by {
          assert ClearBefore(data, row, ts, id, 0);
        }
      } else {
        forall i | 0 < i < |ts|
          ensures !ClearBefore(data, row, ts, id, i)
        {
          assert (ts[0], row) == k0;
        }
      }
    }
  }

  /** Whether a key is swept depends only on the cells of its row at the walk's times. */
  lemma SweptFrame(data: map<Key, Cell>, d1: map<Key, Cell>, row: Row, ts: seq<int>, id: EventId, k: Key)
    requires forall i | 0 <= i < |ts| :: ((ts[i], row) in d1 <==> (ts[i], row) in data)
    requires forall i | 0 <= i < |ts| && (ts[i], row) in d1 :: d1[(ts[i], row)] == data[(ts[i], row)]
    requires k in d1 <==> k in data
    requires k in d1 ==> d1[k] == data[k]
    ensures Swept(d1, row, ts, id, k) <==> Swept(data, row, ts, id, k)
  {
    forall i | 0 <= i <= |ts|
      ensures ClearBefore(d1, row, ts, id, i) <==> ClearBefore(data, row, ts, id, i)
    {
    }
  }

  /** A second walk over an already walked row deletes nothing more. */
  lemma SweptAgain(data: map<Key, Cell>, row: Row, ts: seq<int>, id: EventId, k: Key)
    requires Increasing(ts)
    requires k in TrimScan(data, row, ts, id)
    ensures !Swept(TrimScan(data, row, ts, id), row, ts, id, k)
  {
    var d1 := TrimScan(data, row, ts, id);
    TrimScanSpec(data, row, ts, id);
    forall i | 0 <= i < |ts| && ts[i] == k.0 && k.1 == row && d1[k].IsReferenceTo(id)
      ensures !ClearBefore(d1, row, ts, id, i)
    {
      assert !ClearBefore(data, row, ts, id, i);
      var j :| 0 <= j < i && (ts[j], row) in data && !data[(ts[j], row)].IsReferenceTo(id);
      assert (ts[j], row) in d1;
    }
  }

  /**
   * The walk over every row of `rows` deletes exactly the keys on those rows
   * that the walk of their own row sweeps, and keeps every other cell as it
   * was.
   */
  lemma {:induction false} TrimRowsSpec(data: map<Key, Cell>, rows: seq<Row>, ts: seq<int>, id: EventId)
    requires Increasing(ts)
    ensures forall k :: k in TrimRows(data, rows, ts, id) <==> k in data && !(k.1 in rows && Swept(data, k.1, ts, id, k))
    decreases |rows|
  {
    if rows != [] {
      var d1 := TrimScan(data, rows[0], ts, id);
      TrimScanSpec(data, rows[0], ts, id);
      TrimRowsSpec(d1, rows[1..], ts, id);
      forall k
        ensures (k in d1 && !(k.1 in rows[1..] && Swept(d1, k.1, ts, id, k)))
                <==> (k in data && !(k.1 in rows && Swept(data, k.1, ts, id, k)))
      {
        if k in d1 {
          if k.1 == rows[0] {
            SweptAgain(data, rows[0], ts, id, k);
          } else {
            SweptFrame(data, d1, k.1, ts, id, k);
          }
        }
      }
    }
  }
}

=== FILE: views.dfy ===
/**
 * Read-only projections of a timetable: per-row iteration, the next event
 * on a row, the occupants of one time column, the anchors that start or
 * end at a time, the two dense dumps, and time-window slices.
 */
module Views {
  import opened Wrappers
  import opened Grid

  /** The present cells on `row` at the times `ts`, in order; absent slots are skipped. */
  function RowCells(data: map<Key, Cell>, row: Row, ts: seq<int>): (cs: seq<Cell>)
    ensures |cs| <= |ts|
    ensures forall c | c in cs :: exists i | 0 <= i < |ts| :: (ts[i], row) in data && data[(ts[i], row)] == c
    ensures forall i | 0 <= i < |ts| && (ts[i], row) in data :: data[(ts[i], row)] in cs
    decreases |ts|
  {
    if ts == [] then []
    else
      var rest := RowCells(data, row, ts[1..]);
      assert forall i | 1 <= i < |ts| :: ts[i] == ts[1..][i - 1];
      if (ts[0], row) in data then [data[(ts[0], row)]] + rest else rest
  }

  /** Present cells on a row in the order of increasing slot times come out in increasing time order. */
  lemma {:induction false} RowCellsOrdered(data: map<Key, Cell>, row: Row, ts: seq<int>)
    requires Increasing(ts)
    requires forall k | k in data :: data[k].time == k.0
    ensures forall i, j | 0 <= i < j < |RowCells(data, row, ts)| :: RowCells(data, row, ts)[i].time < RowCells(data, row, ts)[j].time
    decreases |ts|
  {
    if ts != [] {
      var rest := ts[1..];
      assert Increasing(rest) by {
        assert forall i | 0 <= i < |rest| :: rest[i] == ts[i + 1];
      }
      RowCellsOrdered(data, row, rest);
      var cs := RowCells(data, row, ts);
      var cs' := RowCells(data, row, rest);
      assert forall i, j | 0 <= i < j < |cs'| :: cs'[i].time < cs'[j].time;
      if (ts[0], row) in data {
        assert cs == [data[(ts[0], row)]] + cs';
        forall i, j | 0 <= i < j < |cs|
          ensures cs[i].time < cs[j].time
        {
          assert cs[j] == cs'[j - 1] && cs'[j - 1] in cs';
          if i == 0 {
            var m :| 0 <= m < |rest| && (rest[m], row) in data && data[(rest[m], row)] == cs[j];
            assert rest[m] == ts[m + 1];
          } else {
            assert cs[i] == cs'[i - 1];
          }
        }
      } else {
        assert cs == cs';
      }
    }
  }

  /**
   * `iterOnRow`: the cells of `row` from `start` (default: grid start) to
   * `end` (default: grid end). Every cell yielded lies on that row at one
   * of the window's slot times and is the occupant of its own position,
   * every occupied slot of the window is yielded, and the cells come in
   * time order.
   */
  function IterOnRow(g: TimeTable, row: Row, start: Option<int>, end: Option<int>): (cs: seq<Cell>)
    requires Valid(g)
    ensures var ts := SlotTimes(start.GetOr(g.start), end.GetOr(g.end), g.slot);
            forall c | c in cs ::
              && c.row == row
              && start.GetOr(g.start) <= c.time < end.GetOr(g.end)
              && c.time in ts
              && c.Pos() in g.data && g.data[c.Pos()] == c
    ensures var ts := SlotTimes(start.GetOr(g.start), end.GetOr(g.end), g.slot);
            forall i | 0 <= i < |ts| && (ts[i], row) in g.data :: g.data[(ts[i], row)] in cs
    ensures forall i, j | 0 <= i < j < |cs| :: cs[i].time < cs[j].time
  {
    var ts := SlotTimes(start.GetOr(g.start), end.GetOr(g.end), g.slot);
    assert forall k | k in g.data :: g.data[k].time == k.0 by {
      forall k | k in g.data
        ensures g.data[k].time == k.0
      {
        assert Fits(g.events, k, g.data[k]);
      }
    }
    RowCellsOrdered(g.data, row, ts);
    RowCells(g.data, row, ts)
  }

  /** The scan of `findFirstEvent` over a sequence of cells. */
  function FirstEvent(events: seq<Event>, cs: seq<Cell>, start: int): (r: Option<EventId>)
    requires forall c | c in cs :: c.Owner() < |events|
    ensures r.Some? ==> exists c | c in cs :: c.Owner() == r.value && (c.Anchor? || events[c.evt].time >= start)
    decreases |cs|
  {
    if cs == [] then None
    else
      var c := cs[0];
      assert c in cs && c.Owner() < |events|;
      match c
      case Anchor(_, _, id) => Some(id)
      case Reference(_, _, e, _) =>
        if events[e].time >= start then Some(e)
        else
          var r := FirstEvent(events, cs[1..], start);
          assert r.Some? ==> exists c' | c' in cs[1..] :: c'.Owner() == r.value && (c'.Anchor? || events[c'.evt].time >= start);
          r
  }

  /**
   * `findFirstEvent(start, row)`: the first event met on `row` scanning from
   * `start` to the grid end, skipping references to events that started
   * before `start`. The event found never starts before `start`.
   */
  function FindFirstEvent(g: TimeTable, start: int, row: Row): (r: Option<EventId>)
    requires Valid(g)
    ensures r.Some? ==> r.value < |g.events| && g.events[r.value].time >= start
  {
    FirstEvent(g.events, IterOnRow(g, row, Some(start), None), start)
  }

  /** What the scan of `findFirstEvent` makes of the slot at time `t` on `row`. */
  function Hit(g: TimeTable, row: Row, start: int, t: int): Option<EventId>
    requires Valid(g)
  {
    if (t, row) !in g.data then None
    else match g.data[(t, row)]
      case Anchor(_, _, id) => Some(id)
      case Reference(_, _, e, _) => if g.events[e].time >= start then Some(e) else None
  }

  lemma {:induction false} FirstEventScan(g: TimeTable, row: Row, start: int, ts: seq<int>)
    requires Valid(g)
    ensures var r := FirstEvent(g.events, RowCells(g.data, row, ts), start);
            && (r.None? <==> forall i | 0 <= i < |ts| :: Hit(g, row, start, ts[i]).None?)
            && (r.Some? ==> exists i | 0 <= i < |ts| :: Hit(g, row, start, ts[i]) == r && forall j | 0 <= j < i :: Hit(g, row, start, ts[j]).None?)
    decreases |ts|
  {
    if ts != [] {
      var rest := ts[1..];
      var cs := RowCells(g.data, row, ts);
      var cs' := RowCells(g.data, row, rest);
      var r := FirstEvent(g.events, cs, start);
      var r' := FirstEvent(g.events, cs', start);
      var h0 := Hit(g, row, start, ts[0]);
      FirstEventScan(g, row, start, rest);
      if (ts[0], row) in g.data {
        assert cs == [g.data[(ts[0], row)]] + cs';
        assert cs[1..] == cs';
      } else {
        assert cs == cs';
      }
      if h0.None? {
        assert r == r';
        ShiftNone(g, row, start, ts);
        if r.Some? {
          var i :| 0 <= i < |rest| && Hit(g, row, start, rest[i]) == r' && forall j | 0 <= j < i :: Hit(g, row, start, rest[j]).None?;
          ShiftFirst(g, row, start, ts, i);
        }
      } else {
        assert r == h0;
        assert !(forall i | 0 <= i < |ts| :: Hit(g, row, start, ts[i]).None?) by {
          assert Hit(g, row, start, ts[0]).Some?;
        }
      }
    }
  }

  lemma ShiftNone(g: TimeTable, row: Row, start: int, ts: seq<int>)
    requires Valid(g) && |ts| > 0 && Hit(g, row, start, ts[0]).None?
    ensures (forall i | 0 <= i < |ts| :: Hit(g, row, start, ts[i]).None?) <==>
            (forall i | 0 <= i < |ts[1..]| :: Hit(g, row, start, ts[1..][i]).None?)
  {
    assert forall i | 0 < i < |ts| :: ts[i] == ts[1..][i - 1];
  }

  lemma ShiftFirst(g: TimeTable, row: Row, start: int, ts: seq<int>, i: nat)
    requires Valid(g) && |ts| > 0 && Hit(g, row, start, ts[0]).None?
    requires i < |ts[1..]| && forall j | 0 <= j < i :: Hit(g, row, start, ts[1..][j]).None?
    ensures Hit(g, row, start, ts[i + 1]) == Hit(g, row, start, ts[1..][i])
    ensures forall j | 0 <= j < i + 1 :: Hit(g, row, start, ts[j]).None?
  {
    forall j | 0 <= j < i + 1
      ensures Hit(g, row, start, ts[j]).None?
    {
      if j > 0 {
        assert ts[j] == ts[1..][j - 1];
      }
    }
  }

  /**
   * `findFirstEvent` returns the first hit of the slot-by-slot scan from
   * `start`, and nothing exactly when no slot of the scan is a hit.
   */
  lemma FindFirstEventIsFirstHit(g: TimeTable, start: int, row: Row)
    requires Valid(g)
    ensures var ts := SlotTimes(start, g.end, g.slot);
            var r := FindFirstEvent(g, start, row);
            && (r.None? <==> forall i | 0 <= i < |ts| :: Hit(g, row, start, ts[i]).None?)
            && (r.Some? ==> exists i | 0 <= i < |ts| :: Hit(g, row, start, ts[i]) == r && forall j | 0 <= j < i :: Hit(g, row, start, ts[j]).None?)
  {
    FirstEventScan(g, row, start, SlotTimes(start, g.end, g.slot));
  }

  /** `columns()`: the slot start times of the grid, which tile `[start, end)`. */
  function Columns(g: TimeTable): (ts: seq<int>)
    requires Valid(g)
    ensures |ts| > 0
    ensures forall i | 0 <= i < |ts| :: ts[i] == g.start + i * g.slot
    ensures g.start + (|ts| - 1) * g.slot < g.end <= g.start + |ts| * g.slot
  {
    SlotTimesLattice(g.start, g.end, g.slot);
    SlotTimes(g.start, g.end, g.slot)
  }

  /** The occupants at time `t` of the rows `rows`, in row order, anchors only unless `includeReference`. */
  function CellsAt(data: map<Key, Cell>, rows: seq<Row>, t: int, includeReference: bool): (cs: seq<Cell>)
    ensures |cs| <= |rows|
    ensures forall c :: c in cs <==>
              exists i | 0 <= i < |rows| :: (t, rows[i]) in data && data[(t, rows[i])] == c && (includeReference || c.Anchor?)
    decreases |rows|
  {
    if rows == [] then []
    else
      var rest := CellsAt(data, rows[1..], t, includeReference);
      assert forall i | 1 <= i < |rows| :: rows[i] == rows[1..][i - 1];
      var k := (t, rows[0]);
      if k in data && (includeReference || data[k].Anchor?) then [data[k]] + rest else rest
  }

  /** `eventsAtTime(t, include_reference)`. */
  function EventsAtTime(g: TimeTable, t: int, includeReference: bool): (cs: seq<Cell>)
    requires Valid(g)
    ensures |cs| <= |g.rows|
    ensures forall c | c in cs ::
              && c.time == t && c.row in g.rows && (includeReference || c.Anchor?)
              && (t, c.row) in g.data && g.data[(t, c.row)] == c
    ensures forall row | row in g.rows && (t, row) in g.data && (includeReference || g.data[(t, row)].Anchor?) ::
              g.data[(t, row)] in cs
  {
    var cs := CellsAt(g.data, g.rows, t, includeReference);
    assert forall row | row in g.rows :: exists i | 0 <= i < |g.rows| :: g.rows[i] == row;
    cs
  }

  /**
   * `changesAtTime(t)`: the positions of the anchors whose event starts at
   * `t` or whose span of `columns` slots ends at `t`.
   */
  function ChangesAtTime(g: TimeTable, t: int): (ks: set<Key>)
    requires Valid(g)
    ensures forall k :: k in ks <==>
              && k in g.data && g.data[k].Anchor?
              && var e := g.events[g.data[k].id];
                 e.time == t || e.time + e.columns * g.slot == t
  {
    set k | k in g.data && g.data[k].Anchor? && (k.0 == t || k.0 + g.slot * g.events[g.data[k].id].columns == t)
  }

  /**
   * The anchors `eventsAtTime(t)` reports are among the changes at `t`, and
   * every change at `t` that starts there on a grid row is reported by it.
   */
  lemma StartsAreChanges(g: TimeTable, t: int)
    requires Valid(g)
    ensures forall c | c in EventsAtTime(g, t, false) :: c.Pos() in ChangesAtTime(g, t)
    ensures forall k | k in ChangesAtTime(g, t) && k.0 == t && k.1 in g.rows :: g.data[k] in EventsAtTime(g, t, false)
  {
    var cs := EventsAtTime(g, t, false);
    forall c | c in cs
      ensures c.Pos() in ChangesAtTime(g, t)
    {
      var k := (t, c.row);
      assert k in g.data && g.data[k] == c;
      assert Fits(g.events, k, c);
    }
  }

  /** An entry of `byRows`: `{'time', 'row', 'data'}`. */
  datatype RowEntry = RowEntry(time: int, row: Row, data: Option<Cell>)
  /** A line of `byRows`: `[row, cols]`. */
  datatype RowLine = RowLine(row: Row, cols: seq<RowEntry>)
  /** An entry of `byTimes`: `{'row', 'data'}`. */
  datatype TimeEntry = TimeEntry(row: Row, data: Option<Cell>)
  /** A line of `byTimes`: `[time, rows]`. */
  datatype TimeLine = TimeLine(time: int, rows: seq<TimeEntry>)

  function RowEntries(g: TimeTable, row: Row, ts: seq<int>): (es: seq<RowEntry>)
    ensures |es| == |ts|
    ensures forall j | 0 <= j < |ts| :: es[j] == RowEntry(ts[j], row, Get(g, ts[j], row))
    decreases |ts|
  {
    if ts == [] then [] else [RowEntry(ts[0], row, Get(g, ts[0], row))] + RowEntries(g, row, ts[1..])
  }

  function RowLines(g: TimeTable, rows: seq<Row>, ts: seq<int>): (ls: seq<RowLine>)
    ensures |ls| == |rows|
    ensures forall i | 0 <= i < |rows| :: ls[i] == RowLine(rows[i], RowEntries(g, rows[i], ts))
    decreases |rows|
  {
    if rows == [] then [] else [RowLine(rows[0], RowEntries(g, rows[0], ts))] + RowLines(g, rows[1..], ts)
  }

  function TimeEntries(g: TimeTable, t: int, rows: seq<Row>): (es: seq<TimeEntry>)
    ensures |es| == |rows|
    ensures forall i | 0 <= i < |rows| :: es[i] == TimeEntry(rows[i], Get(g, t, rows[i]))
    decreases |rows|
  {
    if rows == [] then [] else [TimeEntry(rows[0], Get(g, t, rows[0]))] + TimeEntries(g, t, rows[1..])
  }

  function TimeLines(g: TimeTable, ts: seq<int>, rows: seq<Row>): (ls: seq<TimeLine>)
    ensures |ls| == |ts|
    ensures forall j | 0 <= j < |ts| :: ls[j] == TimeLine(ts[j], TimeEntries(g, ts[j], rows))
    decreases |ts|
  {
    if ts == [] then [] else [TimeLine(ts[0], TimeEntries(g, ts[0], rows))] + TimeLines(g, ts[1..], rows)
  }

  /**
   * `byRows()`: one line per grid row, in row order; each holds one entry
   * per column of the grid, giving the time, the row and the occupant of
   * that position, if any.
   */
  function ByRows(g: TimeTable): (ls: seq<RowLine>)
    requires Valid(g)
    ensures |ls| == |g.rows|
    ensures forall i | 0 <= i < |g.rows| ::
              && ls[i].row == g.rows[i]
              && |ls[i].cols| == |Columns(g)|
              && forall j | 0 <= j < |Columns(g)| ::
                   ls[i].cols[j] == RowEntry(Columns(g)[j], g.rows[i], Get(g, Columns(g)[j], g.rows[i]))
  {
    RowLines(g, g.rows, Columns(g))
  }

  /**
   * `byTimes()`: one line per column of the grid, in time order; each holds
   * one entry per grid row, giving the row and the occupant of that
   * position, if any.
   */
  function ByTimes(g: TimeTable): (ls: seq<TimeLine>)
    requires Valid(g)
    ensures |ls| == |Columns(g)|
    ensures forall j | 0 <= j < |Columns(g)| ::
              && ls[j].time == Columns(g)[j]
              && |ls[j].rows| == |g.rows|
              && forall i | 0 <= i < |g.rows| ::
                   ls[j].rows[i] == TimeEntry(g.rows[i], Get(g, Columns(g)[j], g.rows[i]))
  {
    TimeLines(g, Columns(g), g.rows)
  }

  /**
   * `byRows` and `byTimes` are transposes of each other: entry `(row, t)`
   * of both holds the occupant of that position, or nothing.
   */
  lemma ByRowsByTimesTranspose(g: TimeTable)
    requires Valid(g)
    ensures forall i, j | 0 <= i < |g.rows| && 0 <= j < |Columns(g)| ::
              && ByRows(g)[i].cols[j].time == ByTimes(g)[j].time
              && ByRows(g)[i].cols[j].row == ByTimes(g)[j].rows[i].row
              && ByRows(g)[i].cols[j].data == ByTimes(g)[j].rows[i].data
  {
  }

  /** The bounds `slice(start, end)` works with: defaults filled in, swapped if reversed. */
  function SliceBounds(g: TimeTable, start: Option<int>, end: Option<int>): (b: (int, int))
    ensures b.0 <= b.1
    ensures {b.0, b.1} == {start.GetOr(g.start), end.GetOr(g.end)}
  {
    var s := start.GetOr(g.start);
    var e := end.GetOr(g.end);
    if e < s then (e, s) else (s, e)
  }

  /**
   * `slice(start, end)`: a timetable over the window with the same rows,
   * slot, events and errors, holding exactly the cells inside the window.
   */
  function Slice(g: TimeTable, start: Option<int>, end: Option<int>): (r: TimeTable)
    requires Valid(g)
    requires start.GetOr(g.start) != end.GetOr(g.end)
    ensures Valid(r)
    ensures r.start < r.end && {r.start, r.end} == {start.GetOr(g.start), end.GetOr(g.end)}
    ensures r.rows == g.rows && r.slot == g.slot && r.events == g.events && r.errors == g.errors
    ensures forall k :: k in r.data <==> k in g.data && r.start <= k.0 < r.end
    ensures forall k | k in r.data :: r.data[k] == g.data[k]
  {
    var (s, e) := SliceBounds(g, start, end);
    TimeTable(s, e, g.rows, g.slot, map k | k in g.data && s <= k.0 < e :: g.data[k], g.events, g.errors)
  }

  /** Reversed bounds give the same slice. */
  lemma SliceSymmetric(g: TimeTable, a: int, b: int)
    requires Valid(g)
    requires a != b
    ensures Slice(g, Some(a), Some(b)) == Slice(g, Some(b), Some(a))
  {
  }
}

=== FILE: wrappers.dfy ===
/** Optional values, standing in for Python's `None` defaults and `dict.get`. */
module Wrappers {

  datatype Option<+T> = None | Some(value: T) {

    /** The wrapped value, or `default` when there is none. */
    function GetOr(default: T): T {
      match this
      case Some(v) => v
      case None => default
    }
  }
}
